=== FILE: README.md ===
# Task tracker visibility and dashboard model

A Dafny model of the visibility and query-composition rules of a small
multi-user project/task tracker, the dashboard figures built on them, and the
client-side derivations that consume them.

The entity store is an immutable snapshot `Store(users, projects, members,
tasks)`. The membership join table is a sequence of `Membership(projectId,
userId)` rows. A request's session is an `Option<Caller>`, where `None` stands
for "no session".

Each task filter the handlers build is one value of `Query.TaskWhere`: a
visibility scope ANDed with optional column constraints. The task list and the
dashboard's six task reads are instances of it, evaluated by `Query.Select`.
The dashboard's two project reads, the project count and the project overview,
go through `Visibility.SelectProjects` instead.

Modules, leaf first:

- `Wrappers`: `Option` and `Result`.
- `Domain`: the entities, their enumerations and wire names, and the handler errors with their HTTP codes.
- `Visibility`: the project and task visibility predicates.
- `Query`: store filters and their evaluation.
- `Ordering`: the three sort orders and an insertion sort.
  - `Collation` holds how the database ranks priorities and where it puts null due dates.
- `Grouping`: group-and-count, and the client's lookup that defaults to 0.
- `TasksRoute`: `GET /api/tasks` (filters and order) and `POST /api/tasks` (validation, defaults, creation).
- `DashboardRoute`: `GET /api/dashboard`.
- `DashboardPage`, `ProjectsPage`, `TasksPage`: the pure derivations of the three views.

Two behaviours are left to the database, and the model is explicit about them:

- The source's `orderBy` on the due date does not fix where null due dates go, so their placement is a `Collation` parameter rather than fixed to "nulls last".
- A non-empty `status` or `priority` parameter outside its enumeration is handed to the store unchecked. The model assumes these columns are database enumerations, which reject such a value. The handler's catch turns that into a 500, so the model returns `Err(InternalFailure)`. With a plain string column, the answer would instead be an empty list with status 200.

## Model

| member | source | states |
|---|---|---|
| Domain.ParsePriority | src/app/api/tasks/route.ts:10 | a priority string is accepted exactly when it is the wire name of some priority, and then decodes to that priority |
| Domain.ParseStatus | src/app/api/tasks/route.ts:11 | a status string is accepted exactly when it is the wire name of some status, and then decodes to that status |
| Visibility.ProjectVisible | src/app/api/tasks/route.ts:36-47 | definition: a project is visible to its owner and to every user with a membership row for it |
| Visibility.TaskVisible | src/app/api/tasks/route.ts:31-50 | definition: a task is visible to its creator, its assignee, and anyone who may see the project it references |
| Visibility.SelectProjects | src/app/api/dashboard/route.ts:25-36 | a project is selected iff it is in the store and the user owns it or has a membership row for it; no row is invented |
| Visibility.JoinKeepsVisibility | src/app/api/tasks/route.ts:31-50 | adding a membership row never hides a task that was visible (visibility is monotone in membership) |
| Visibility.JoinGrantsProjectTasks | src/app/api/tasks/route.ts:35-47 | joining an existing project makes every task of that project visible |
| Visibility.VisibleProjectTasks | src/app/api/tasks/route.ts:35-47 | every task of a project the user may see is visible to the user |
| Query.Matches | src/app/api/tasks/route.ts:31-66 | definition: a row meets the scope and every constraint that is set; a null due date never meets a lower bound |
| Query.Select | src/app/api/tasks/route.ts:68-69 | a row is returned iff it is in the input and satisfies the whole filter; the result is a sub-multiset of the input |
| Query.SelectMonotone | src/app/api/tasks/route.ts:52-66 | a filter that implies another selects a sub-multiset of the other's rows, and no more of them |
| Ordering.DueCmp | src/app/api/tasks/route.ts:94 | due-date comparison is zero exactly on equal dates, follows the integer order on present dates, and puts a null before a present date iff the collation puts nulls first, and after it otherwise, in both operand orders |
| Ordering.DueCmpAntisymmetric | src/app/api/tasks/route.ts:94 | swapping the two due dates negates the comparison |
| Ordering.Before | src/app/api/tasks/route.ts:92-96 | definition: task-list order is priority descending, then due date ascending, then creation time descending; the dashboard's orders are creation time descending and due date ascending |
| Ordering.BeforeTotal | src/app/api/tasks/route.ts:92-96 | any two tasks are comparable under each of the three orders |
| Ordering.BeforeTransitive | src/app/api/tasks/route.ts:92-96 | each of the three orders is transitive |
| Ordering.SortedListRanks | src/app/api/tasks/route.ts:92-96 | along a list sorted in task-list order, priority rank never rises; with equal rank, due dates never fall; with equal rank and due date, creation time never rises |
| Ordering.Insert | src/app/api/tasks/route.ts:92-96 | inserting into a sorted list keeps it sorted and adds exactly that one row |
| Ordering.Sort | src/app/api/tasks/route.ts:92-96 | the result is sorted in the requested order and is a permutation of the input |
| Ordering.Take | src/app/api/dashboard/route.ts:134 | `take` returns the first min(n, length) rows, a sub-multiset of the input |
| Ordering.TakeSortedIsTop | src/app/api/dashboard/route.ts:131-134 | every row left out of the first n of a sorted list is preceded by every row kept |
| Grouping.CountBy | src/app/api/dashboard/route.ts:66-89 | the count of tasks with a key is at most the number of tasks, and is 0 iff no task has that key |
| Grouping.GroupBy | src/app/api/dashboard/route.ts:66-89 | each group's key is an enumeration value, and its count is positive and equals the number of tasks with that key |
| Grouping.Lookup | src/app/dashboard/page.tsx:74-80 | a lookup gives the count of the first group with the key, and 0 when no group has it |
| Grouping.GroupBySum | src/app/api/dashboard/route.ts:66-89 | over a duplicate-free universe covering every key, the group counts sum to the number of tasks |
| Grouping.LookupGroupBy | src/app/dashboard/page.tsx:74-80 | looking a key up in the groups gives the number of tasks with that key, or 0 outside the universe |
| Grouping.StatusGroups | src/app/api/dashboard/route.ts:66-89 | status groups sum to the task count, and a status lookup gives the number of tasks with that status |
| Grouping.PriorityGroups | src/app/api/dashboard/route.ts:91-114 | priority groups sum to the task count, and a priority lookup gives the number of tasks with that priority |
| Grouping.StatusCountsSum | src/app/dashboard/page.tsx:185-193 | the TODO, IN_PROGRESS and DONE counts of a list add up to its length |
| Grouping.PriorityCountsSum | src/app/dashboard/page.tsx:203-211 | the HIGH, MEDIUM and LOW counts of a list add up to its length |
| TasksRoute.GetParam | src/app/api/tasks/route.ts:25-29 | a parameter lookup yields the value of the first pair with that name, and is absent iff no pair has that name |
| TasksRoute.StatusFilter | src/app/api/tasks/route.ts:56-58 | an empty or absent status adds no constraint; a valid status constrains to it; any other string is a failure |
| TasksRoute.PriorityFilter | src/app/api/tasks/route.ts:60-62 | an empty or absent priority adds no constraint; a valid priority constrains to it; any other string is a failure |
| TasksRoute.BuildWhere | src/app/api/tasks/route.ts:31-66 | the list filter admits a task iff the task is visible and passes every truthy parameter; `assignedToMe` counts only when exactly "true"; it fails only on an invalid enum |
| TasksRoute.GetTasks | src/app/api/tasks/route.ts:17-107 | without a session it answers 401 and reads nothing; otherwise it lists exactly the visible tasks passing the filters, as a sub-multiset of the store, sorted in task-list order |
| TasksRoute.AssignedToMeNarrows | src/app/api/tasks/route.ts:64-66 | with `assignedToMe=true` every listed task is assigned to the caller |
| TasksRoute.FilteredWithinUnfiltered | src/app/api/tasks/route.ts:52-66 | any filtered list is a sub-multiset of the unfiltered list and no longer than it |
| TasksRoute.OnlyEffectiveParamsMatter | src/app/api/tasks/route.ts:52-66 | empty-string parameters and `assignedToMe` values other than "true" have no effect on the answer |
| TasksRoute.ListIgnoresRole | src/app/api/tasks/route.ts:31-50 | the caller's role is never consulted: two callers with the same id get the same list |
| TasksRoute.ValidateTask | src/app/api/tasks/route.ts:7-15 | a body is accepted iff the title is a non-empty string, the project id a string, the optional fields absent or strings, and the priority and status absent or in their enumerations; absent priority becomes MEDIUM and absent status TODO |
| TasksRoute.ShapeTask | src/app/api/tasks/route.ts:120-142 | the create payload takes its creator from the session; it has a due date iff a non-empty date string was given, and an assignee iff a non-empty id was given |
| TasksRoute.PostTask | src/app/api/tasks/route.ts:109-182 | without a session it answers 401 and creates nothing; an invalid body yields 400; creation succeeds iff there is a session, the body validates, a given due date parses and every connected project and user exists, and any other failure is a 500 that creates nothing; on success exactly one task is appended, created by the caller with the validated fields, the parsed due date and the given assignee (none for an empty id) |
| TasksRoute.PostIgnoresRole | src/app/api/tasks/route.ts:109-142 | the caller's role is never consulted on create: two callers with the same id get the same store and answer |
| TasksRoute.CreatedTaskIsListed | src/app/api/tasks/route.ts:132-136 | a task the caller just created appears in the caller's unfiltered task list |
| DashboardRoute.VisibleTasksWhere | src/app/api/dashboard/route.ts:38-57 | the total-task filter admits exactly the tasks visible to the caller |
| DashboardRoute.AssignedOpenWhere | src/app/api/dashboard/route.ts:59-64 | the assigned-task filter admits exactly the tasks assigned to the caller that are not DONE |
| DashboardRoute.RecentWhere | src/app/api/dashboard/route.ts:116-122 | the recent filter admits exactly the tasks the caller created or is assigned |
| DashboardRoute.UpcomingWhere | src/app/api/dashboard/route.ts:137-144 | the upcoming filter admits exactly the tasks assigned to the caller, not DONE, with a due date at or after `now` |
| DashboardRoute.AssignedOpenWithinVisible | src/app/api/dashboard/route.ts:59-64 | the open tasks assigned to the caller are a sub-multiset of the visible tasks |
| DashboardRoute.GetStats | src/app/api/dashboard/route.ts:25-64 | the project and task totals count the visible projects and tasks; the assigned count is the number of tasks assigned to the caller that are not DONE, and never exceeds the task total |
| DashboardRoute.TasksByStatus | src/app/api/dashboard/route.ts:66-89 | status groups are positive, sum to the visible-task count, and each lookup gives that status's visible count |
| DashboardRoute.TasksByPriority | src/app/api/dashboard/route.ts:91-114 | priority groups are positive, sum to the visible-task count, and each lookup gives that priority's visible count |
| DashboardRoute.RecentTasks | src/app/api/dashboard/route.ts:116-135 | exactly min(5, qualifying) entries, a sub-multiset of the qualifying tasks, each created by or assigned to the caller, newest first |
| DashboardRoute.UpcomingTasks | src/app/api/dashboard/route.ts:137-157 | exactly min(5, qualifying) entries, a sub-multiset of the qualifying tasks, each assigned to the caller, not DONE, due at or after `now`, soonest first |
| DashboardRoute.TasksOfProject | src/app/api/dashboard/route.ts:171-177 | a project's task list has one entry per store task of that project, each the `{id, status}` of such a task |
| DashboardRoute.TasksOfProjectContents | src/app/api/dashboard/route.ts:171-177 | each `{id, status}` occurs in a project's task list exactly as often as the store has tasks of that project with that id and status |
| DashboardRoute.ProjectStats | src/app/api/dashboard/route.ts:160-180 | min(5, visible) entries; entry i is the i-th visible store project with that project's task list |
| DashboardRoute.GetDashboard | src/app/api/dashboard/route.ts:6-193 | 401 exactly when there is no session; otherwise the three totals are the caller's visible-project, visible-task and open-assigned counts, every status and priority lookup is the caller's visible count, both groupings sum to the total, the recent and upcoming lists are at most five of their qualifying tasks in their orders, and the overview holds the first min(5, totalProjects) visible projects, each with its own task list |
| DashboardRoute.TotalMatchesTaskList | src/app/api/dashboard/route.ts:38-57 | the dashboard's task total equals the length of the caller's unfiltered task list |
| DashboardRoute.RecentAreNewest | src/app/api/dashboard/route.ts:116-135 | a qualifying task left out of the recent list is no newer than any entry |
| DashboardRoute.UpcomingAreSoonest | src/app/api/dashboard/route.ts:137-157 | a qualifying task left out of the upcoming list is due no sooner than any entry |
| DashboardRoute.OverdueCountedNotUpcoming | src/app/api/dashboard/route.ts:137-157 | an overdue task assigned to the caller is not upcoming, but is still counted in its status group |
| DashboardPage.StatusCount | src/app/dashboard/page.tsx:74-76 | the count shown for a status is the count of the first group with that status, and 0 without one |
| DashboardPage.PriorityCount | src/app/dashboard/page.tsx:78-80 | the count shown for a priority is the count of the first group with that priority, and 0 without one |
| DashboardPage.StatusCountIsVisibleCount | src/app/dashboard/page.tsx:185-193 | on the endpoint's dashboard, the count shown for a status is the number of visible tasks with it |
| DashboardPage.ShownStatusCountsSumToTotal | src/app/dashboard/page.tsx:185-193 | the three status counts shown add up to the total tasks shown |
| DashboardPage.ShownPriorityCountsSumToTotal | src/app/dashboard/page.tsx:203-211 | the three priority counts shown add up to the total tasks shown |
| DashboardPage.CountDone | src/app/dashboard/page.tsx:292 | the completed count is at most the number of tasks, and equals it iff every task is DONE |
| DashboardPage.DoneOfProject | src/app/dashboard/page.tsx:292 | the completed count derived from a project's task list is the number of that project's store tasks that are DONE |
| DashboardPage.OverviewProgressFromStore | src/app/dashboard/page.tsx:292-294 | for every project of the overview, the progress total is the project's task count in the store and the completed count its DONE task count |
| DashboardPage.ProjectProgress | src/app/dashboard/page.tsx:292-294 | completed ≤ total; with tasks, the percentage is exactly completed / total × 100; it is 0 without tasks (no division by zero), lies in [0, 100], and is 100 iff there are tasks and all are DONE |
| DashboardPage.RoundedPercent | src/app/dashboard/page.tsx:301 | the shown percentage is the half-up rounding of the progress, lies in [0, 100], and is 0 or 100 when the progress is |
| ProjectsPage.CanManage | src/app/projects/page.tsx:198 | edit/delete controls show iff there is a session whose user owns the project or is ADMIN |
| ProjectsPage.AdminManagesEveryProject | src/app/projects/page.tsx:198 | an ADMIN sees the controls on every project |
| ProjectsPage.MemberCannotManage | src/app/projects/page.tsx:198 | a MEMBER who does not own the project never sees the controls |
| ProjectsPage.BlankForm | src/app/projects/page.tsx:44-49 | the blank project form has an empty name and description, status ACTIVE and no members |
| ProjectsPage.OpenCreate | src/app/projects/page.tsx:133-137 | opening the create dialog shows the blank form with nothing being edited |
| ProjectsPage.OpenEdit | src/app/projects/page.tsx:122-131 | the edit form copies the name and status, turns a null description into "", and lists the members' user ids in order |
| ProjectsPage.AfterSubmit | src/app/projects/page.tsx:95-99 | a successful save closes the dialog, clears editing and resets to the create form; a failed save changes nothing |
| ProjectsPage.EditFormMatchesCard | src/app/projects/page.tsx:192-194 | the edit form lists as many member ids as the card's member count, and exactly the card members' ids |
| TasksPage.EncodeFilters | src/app/tasks/page.tsx:75-79 | the encoded filters are at most four pairs, none with an empty value |
| TasksPage.LookupEncoded | src/app/tasks/page.tsx:76-79 | looking up any name in the encoded filters finds the filter's value iff it is non-empty, and "true" for `assignedToMe` iff the box is checked |
| TasksPage.DecodeEncoded | src/app/tasks/page.tsx:75-79 | the server reads back each non-empty filter value unchanged, and `assignedToMe=true` exactly when the box is checked |
| TasksPage.FiltersRoundTrip | src/app/tasks/page.tsx:75-79 | for the values the selects offer, the list contains exactly the visible tasks meeting each chosen filter; the assigned-to-caller constraint is present exactly when the box is checked |
| TasksPage.DefaultForm | src/app/tasks/page.tsx:57-65 | a fresh task form has an empty title, description, due date and assignee, priority MEDIUM and status TODO |
| TasksPage.OpenCreate | src/app/tasks/page.tsx:179-191 | the create form holds the defaults with the first listed project, or "" when none are listed |
| TasksPage.OpenEdit | src/app/tasks/page.tsx:165-177 | the edit form takes the task's project id, maps a null description and a missing assignee to "", and leaves the due date empty when there is none |
| TasksPage.ChooseProject | src/app/tasks/page.tsx:391-396 | picking a project changes only the project id, and does nothing while editing |
| TasksPage.AfterSubmit | src/app/tasks/page.tsx:130-142 | a successful save closes the dialog, clears editing and resets to the defaults with no project; a failed save changes nothing |
| TasksPage.EditKeepsProject | src/app/tasks/page.tsx:396 | an edit form keeps the task's original project id whatever project is picked |
| TasksPage.FormBody | src/app/tasks/page.tsx:127 | the dialog's body passes the task schema exactly when the title is filled in, and then carries the form's values unchanged |
| TasksPage.DefaultFormCreates | src/app/tasks/page.tsx:179-191 | a create form left at its defaults, once titled, passes validation, and any task it creates is MEDIUM, TODO, unassigned, without due date and created by the caller |

## Left out

- Project and task update/delete handlers (`src/app/api/projects/[id]/route.ts`, `src/app/api/tasks/[id]/route.ts`), and with them the edit/delete permission rules. They are not part of this model.
- The project list, user list and authentication endpoints are not part of this model. The project and task payloads the pages receive are datatypes of their own (`ProjectCard`, `TaskRow`).
- React rendering, state hooks, `fetch`, JSON transport and `confirm` dialogs. Only the pure derivations are modelled, as functions from page state to page state.
- Query execution, `Promise.all` and sessions. The store is one immutable snapshot read in sequence, and the session is a parameter.
- The store's referential checks on `connect` are one predicate. A missing project or user yields a 500 and creates nothing.
- Server-side id and timestamp generation: the new task's id and creation time are parameters.
- Dates are integers. `new Date(s)` on a request body is a parameter `parseDate`, and an invalid date is a 500. The edit form's day rendering is a parameter `dayOf`. Locale date formatting is not modelled.
- Floating-point progress. Progress is an exact ratio, and `Math.round` is half-up rounding on it. Both the model and the page show 200 of 201 done as 100%. At an exact .5 the two can differ by one. In double precision, `(29 / 200) * 100` is 14.499999999999998, so the page shows 14% where `RoundedPercent` gives 15%. In the same way, 57 of 200 shows 28% on the page and 29% in the model.
- Order among rows that tie on every sort key: the store promises none, and the model's insertion sort picks one.
- The order of `groupBy` groups and of the five project-overview projects: the source fixes neither. The model uses enumeration order and store row order.
- Validation error details: zod reports each failing field, but `ValidationError` carries none.
- A request body that is not JSON at all: the handler answers 500, but `PostTask` receives an already-parsed body.
- Logging of internal failures, the seeding scripts, the animation component and the colour-class helpers: these are side effects or presentation only.
- ProjectsPage.ShownCounts: no contract of its own. The card's counts are the lengths of the payload's lists, and `EditFormMatchesCard` relates the member count to the edit form.

=== FILE: dashboard_page.dfy ===
/** What the dashboard view derives from the dashboard payload: per-status
    and per-priority counts (0 for a value with no group) and each
    project's completion. */
module DashboardPage {
  import opened Wrappers
  import opened Domain
  import opened Ordering
  import opened Grouping
  import opened DashboardRoute

  /** The count shown for a status. */
  function StatusCount(d: Dashboard, s: TaskStatus): (n: nat)
    ensures (forall i :: 0 <= i < |d.tasksByStatus| ==> d.tasksByStatus[i].key != s) ==> n == 0
    ensures n > 0 ==> exists i :: 0 <= i < |d.tasksByStatus| && d.tasksByStatus[i].key == s && d.tasksByStatus[i].count == n
    ensures forall i :: 0 <= i < |d.tasksByStatus| && d.tasksByStatus[i].key == s && (forall j :: 0 <= j < i ==> d.tasksByStatus[j].key != s) ==> n == d.tasksByStatus[i].count
  {
    Lookup(d.tasksByStatus, s)
  }

  /** The count shown for a priority. */
  function PriorityCount(d: Dashboard, p: Priority): (n: nat)
    ensures (forall i :: 0 <= i < |d.tasksByPriority| ==> d.tasksByPriority[i].key != p) ==> n == 0
    ensures n > 0 ==> exists i :: 0 <= i < |d.tasksByPriority| && d.tasksByPriority[i].key == p && d.tasksByPriority[i].count == n
    ensures forall i :: 0 <= i < |d.tasksByPriority| && d.tasksByPriority[i].key == p && (forall j :: 0 <= j < i ==> d.tasksByPriority[j].key != p) ==> n == d.tasksByPriority[i].count
  {
    Lookup(d.tasksByPriority, p)
  }

  /** On a dashboard the endpoint produced, the count shown for a status is
      the number of visible tasks with that status. */
  lemma StatusCountIsVisibleCount(store: Store, c: Caller, col: Collation, now: int, s: TaskStatus)
    ensures GetDashboard(store, Some(c), col, now).Ok?
    ensures StatusCount(GetDashboard(store, Some(c), col, now).value, s) == CountBy(VisibleTasks(store, c.id), StatusOf, s)
  {
  }

  /** The three status counts shown add up to the total shown. */
  lemma ShownStatusCountsSumToTotal(store: Store, c: Caller, col: Collation, now: int)
    ensures GetDashboard(store, Some(c), col, now).Ok?
    ensures var d := GetDashboard(store, Some(c), col, now).value;
            StatusCount(d, TODO) + StatusCount(d, IN_PROGRESS) + StatusCount(d, DONE) == d.stats.totalTasks
  {
    var d := GetDashboard(store, Some(c), col, now).value;
    assert d.tasksByStatus == TasksByStatus(store, c.id);
    StatusCountsSum(VisibleTasks(store, c.id));
  }

  /** The three priority counts shown add up to the total shown. */
  lemma ShownPriorityCountsSumToTotal(store: Store, c: Caller, col: Collation, now: int)
    ensures GetDashboard(store, Some(c), col, now).Ok?
    ensures var d := GetDashboard(store, Some(c), col, now).value;
            PriorityCount(d, HIGH) + PriorityCount(d, MEDIUM) + PriorityCount(d, LOW) == d.stats.totalTasks
  {
    var d := GetDashboard(store, Some(c), col, now).value;
    assert d.tasksByPriority == TasksByPriority(store, c.id);
    PriorityCountsSum(VisibleTasks(store, c.id));
  }

  function CountDone(ts: seq<TaskBrief>): (n: nat)
    ensures n <= |ts|
    ensures n == |ts| <==> forall i :: 0 <= i < |ts| ==> ts[i].status == DONE
  {
    if ts == [] then 0
    else (if ts[0].status == DONE then 1 else 0) + CountDone(ts[1..])
  }

  /** A task's project together with its status. */
  function ProjectStatusOf(t: Task): (Id, TaskStatus) {
    (t.projectId, t.status)
  }

  /** The completed count the view derives from a project's task briefs is
      the number of the project's tasks in the store that are DONE. */
  lemma {:induction false} DoneOfProject(ts: seq<Task>, projectId: Id)
    ensures CountDone(TasksOfProject(ts, projectId)) == CountBy(ts, ProjectStatusOf, (projectId, DONE))
  {
    if ts != [] {
      DoneOfProject(ts[1..], projectId);
      var rest := TasksOfProject(ts[1..], projectId);
      if ts[0].projectId == projectId {
        var r := [TaskBrief(ts[0].id, ts[0].status)] + rest;
        assert r[0] == TaskBrief(ts[0].id, ts[0].status) && r[1..] == rest;
      }
    }
  }

  /** A project's completion: `completed` of `total` tasks done, and the
      percentage as the exact ratio `percentNum / percentDen`. */
  datatype Progress = Progress(completed: nat, total: nat, percentNum: nat, percentDen: nat)

  /** Completion of a project; a project without tasks is at 0%, never a
      division by zero. */
  function ProjectProgress(p: ProjectStat): (r: Progress)
    ensures r.total == |p.tasks| && r.completed == CountDone(p.tasks)
    ensures r.completed <= r.total
    ensures r.percentDen > 0
    ensures r.total == 0 ==> r.percentNum == 0
    ensures r.total > 0 ==> r.percentNum * r.total == 100 * r.completed * r.percentDen
    ensures r.percentNum <= 100 * r.percentDen
    ensures r.percentNum == 100 * r.percentDen <==>
              r.total > 0 && forall i :: 0 <= i < |p.tasks| ==> p.tasks[i].status == DONE
  {
    var completed := CountDone(p.tasks);
    var total := |p.tasks|;
    if total > 0 then Progress(completed, total, completed * 100, total)
    else Progress(completed, total, 0, 1)
  }

  /** On the endpoint's project overview, each project's progress counts
      exactly its tasks in the store, and exactly its DONE ones as completed. */
  lemma OverviewProgressFromStore(store: Store, userId: Id, i: int)
    requires 0 <= i < |ProjectStats(store, userId)|
    ensures var p := ProjectStats(store, userId)[i];
            && ProjectProgress(p).total == CountBy(store.tasks, ProjectIdOf, p.project.id)
            && ProjectProgress(p).completed == CountBy(store.tasks, ProjectStatusOf, (p.project.id, DONE))
  {
    DoneOfProject(store.tasks, ProjectStats(store, userId)[i].project.id);
  }

  lemma MulBelow(k: int, y: int)
    requires y > 0 && k * y < y
    ensures k <= 0
  {
  }

  lemma MulBetween(k: int, y: int)
    requires y > 0 && -y < k * y < y
    ensures k == 0
  {
  }

  lemma DivUnique(x: nat, y: nat, q: nat)
    requires y > 0 && q * y <= x < q * y + y
    ensures x / y == q
  {
    var d := x / y;
    assert x == d * y + x % y;
    assert (d - q) * y == d * y - q * y;
    MulBetween(d - q, y);
  }

  lemma RoundBounds(num: nat, den: nat)
    requires den > 0 && num <= 100 * den
    ensures (2 * num + den) / (2 * den) <= 100
  {
    var x := 2 * num + den;
    var y := 2 * den;
    var q := x / y;
    assert x == q * y + x % y;
    assert (q - 100) * y == q * y - 100 * y;
    MulBelow(q - 100, y);
  }

  lemma RoundEnds(num: nat, den: nat)
    requires den > 0
    ensures num == 0 ==> (2 * num + den) / (2 * den) == 0
    ensures num == 100 * den ==> (2 * num + den) / (2 * den) == 100
  {
    if num == 0 { DivUnique(den, 2 * den, 0); }
    if num == 100 * den { DivUnique(2 * num + den, 2 * den, 100); }
  }

  /** The whole percentage shown: the ratio rounded half up, that is the
      integer `n` with `n - 1/2 <= num/den < n + 1/2`. */
  function RoundedPercent(r: Progress): (n: nat)
    requires r.percentDen > 0 && r.percentNum <= 100 * r.percentDen
    ensures n * (2 * r.percentDen) <= 2 * r.percentNum + r.percentDen < (n + 1) * (2 * r.percentDen)
    ensures n <= 100
    ensures r.percentNum == 0 ==> n == 0
    ensures r.percentNum == 100 * r.percentDen ==> n == 100
  {
    var x := 2 * r.percentNum + r.percentDen;
    var y := 2 * r.percentDen;
    RoundBounds(r.percentNum, r.percentDen);
    RoundEnds(r.percentNum, r.percentDen);
    assert x == (x / y) * y + x % y;
    assert (x / y + 1) * y == (x / y) * y + y;
    x / y
  }
}

=== FILE: dashboard_route.dfy ===
/** The dashboard endpoint: counts, groupings and short lists computed for
    the caller, each under its own store filter. */
module DashboardRoute {
  import opened Wrappers
  import opened Domain
  import opened Visibility
  import opened Query
  import opened Ordering
  import opened Grouping
  import TasksRoute

  /** How many rows each of the short lists takes. */
  const ListLimit: nat := 5

  datatype Stats = Stats(totalProjects: nat, totalTasks: nat, assignedTasks: nat)

  /** A project with the `{ id, status }` of all of its tasks. */
  datatype ProjectStat = ProjectStat(project: Project, tasks: seq<TaskBrief>)

  datatype Dashboard = Dashboard(
    stats: Stats,
    tasksByStatus: seq<Group<TaskStatus>>,
    tasksByPriority: seq<Group<Priority>>,
    recentTasks: seq<Task>,
    upcomingTasks: seq<Task>,
    projectStats: seq<ProjectStat>)

  // The filters of the six task reads; the project reads use `SelectProjects`.

  /** Every task the caller may see. */
  function VisibleTasksWhere(userId: Id): (w: TaskWhere)
    ensures forall store, t :: Matches(store, w, t) <==> TaskVisible(store, userId, t)
  {
    Where(VisibleTo(userId))
  }

  /** Tasks assigned to the caller that are not DONE, whoever may see their project. */
  function AssignedOpenWhere(userId: Id): (w: TaskWhere)
    ensures forall store, t :: Matches(store, w, t) <==> t.assignedToId == Some(userId) && t.status != DONE
  {
    Where(AnyTask).(assignedToId := Some(userId), statusNot := Some(DONE))
  }

  /** Tasks the caller created or is assigned; project membership does not count. */
  function RecentWhere(userId: Id): (w: TaskWhere)
    ensures forall store, t :: Matches(store, w, t) <==> t.createdById == userId || t.assignedToId == Some(userId)
  {
    Where(CreatedOrAssigned(userId))
  }

  /** Open tasks assigned to the caller with a due date at or after `now`. */
  function UpcomingWhere(userId: Id, now: int): (w: TaskWhere)
    ensures forall store, t :: Matches(store, w, t) <==>
              t.assignedToId == Some(userId) && t.status != DONE && t.dueDate.Some? && t.dueDate.value >= now
  {
    Where(AnyTask).(assignedToId := Some(userId), statusNot := Some(DONE), dueOnOrAfter := Some(now))
  }

  function VisibleTasks(store: Store, userId: Id): seq<Task> {
    FindMany(store, VisibleTasksWhere(userId))
  }

  /** Every open task assigned to the caller is visible to the caller. */
  lemma AssignedOpenWithinVisible(store: Store, userId: Id)
    ensures multiset(FindMany(store, AssignedOpenWhere(userId))) <= multiset(VisibleTasks(store, userId))
    ensures |FindMany(store, AssignedOpenWhere(userId))| <= |VisibleTasks(store, userId)|
  {
    forall t | t in store.tasks && Matches(store, AssignedOpenWhere(userId), t)
      ensures Matches(store, VisibleTasksWhere(userId), t)
    {
      assert t.assignedToId == Some(userId);
    }
    SelectMonotone(store, AssignedOpenWhere(userId), VisibleTasksWhere(userId), store.tasks);
  }

  /** The three headline counts. The open-assigned count ignores visibility,
      but an assignee always sees the task, so it never exceeds the total. */
  function GetStats(store: Store, userId: Id): (s: Stats)
    ensures s.totalProjects == |VisibleProjects(store, userId)| <= |store.projects|
    ensures s.totalTasks == |VisibleTasks(store, userId)| <= |store.tasks|
    ensures s.assignedTasks == |FindMany(store, AssignedOpenWhere(userId))|
    ensures s.assignedTasks <= s.totalTasks
  {
    AssignedOpenWithinVisible(store, userId);
    Stats(|VisibleProjects(store, userId)|, |VisibleTasks(store, userId)|,
          |FindMany(store, AssignedOpenWhere(userId))|)
  }

  /** Visible tasks grouped by status: the groups cover the visible tasks
      exactly once, and a lookup gives each status's count. */
  function TasksByStatus(store: Store, userId: Id): (gs: seq<Group<TaskStatus>>)
    ensures forall i :: 0 <= i < |gs| ==> gs[i].count > 0
    ensures SumCounts(gs) == |VisibleTasks(store, userId)|
    ensures forall s :: Lookup(gs, s) == CountBy(VisibleTasks(store, userId), StatusOf, s)
  {
    var ts := VisibleTasks(store, userId);
    StatusGroups(ts);
    GroupBy(ts, StatusOf, AllStatuses)
  }

  /** Visible tasks grouped by priority, with the same guarantees. */
  function TasksByPriority(store: Store, userId: Id): (gs: seq<Group<Priority>>)
    ensures forall i :: 0 <= i < |gs| ==> gs[i].count > 0
    ensures SumCounts(gs) == |VisibleTasks(store, userId)|
    ensures forall p :: Lookup(gs, p) == CountBy(VisibleTasks(store, userId), PriorityOf, p)
  {
    var ts := VisibleTasks(store, userId);
    PriorityGroups(ts);
    GroupBy(ts, PriorityOf, AllPriorities)
  }

  /** The newest tasks the caller created or is assigned, at most five. */
  function RecentTasks(store: Store, userId: Id, col: Collation): (r: seq<Task>)
    ensures |r| == if |FindMany(store, RecentWhere(userId))| <= ListLimit
                   then |FindMany(store, RecentWhere(userId))| else ListLimit
    ensures multiset(r) <= multiset(FindMany(store, RecentWhere(userId)))
    ensures forall t :: t in r ==> t in store.tasks && (t.createdById == userId || t.assignedToId == Some(userId))
    ensures SortedBy(col, NewestFirst, r)
  {
    var sorted := Sort(col, NewestFirst, FindMany(store, RecentWhere(userId)));
    var r := Take(sorted, ListLimit);
    assert |sorted| == |multiset(sorted)|;
    forall t | t in r ensures t in store.tasks && (t.createdById == userId || t.assignedToId == Some(userId)) {
      assert t in multiset(sorted);
    }
    r
  }

  /** The caller's open assigned tasks due now or later, soonest first, at most five. */
  function UpcomingTasks(store: Store, userId: Id, col: Collation, now: int): (r: seq<Task>)
    ensures |r| == if |FindMany(store, UpcomingWhere(userId, now))| <= ListLimit
                   then |FindMany(store, UpcomingWhere(userId, now))| else ListLimit
    ensures forall t :: t in r ==>
              && t in store.tasks
              && t.assignedToId == Some(userId)
              && t.status != DONE
              && t.dueDate.Some? && t.dueDate.value >= now
    ensures multiset(r) <= multiset(FindMany(store, UpcomingWhere(userId, now)))
    ensures SortedBy(col, EarliestDueFirst, r)
  {
    var sorted := Sort(col, EarliestDueFirst, FindMany(store, UpcomingWhere(userId, now)));
    var r := Take(sorted, ListLimit);
    assert |sorted| == |multiset(sorted)|;
    forall t | t in r ensures t in store.tasks && Matches(store, UpcomingWhere(userId, now), t) {
      assert t in multiset(sorted);
    }
    r
  }

  /** A task's project together with its `{ id, status }`. */
  function ProjectBriefOf(t: Task): (Id, Id, TaskStatus) {
    (t.projectId, t.id, t.status)
  }

  /** The `{ id, status }` of every task of the project, in store order. */
  function TasksOfProject(ts: seq<Task>, projectId: Id): (r: seq<TaskBrief>)
    ensures |r| == CountBy(ts, ProjectIdOf, projectId)
    ensures forall b :: b in r ==> exists t :: t in ts && t.projectId == projectId && b == TaskBrief(t.id, t.status)
  {
    if ts == [] then []
    else
      var rest := TasksOfProject(ts[1..], projectId);
      assert forall t :: t in ts[1..] ==> t in ts;
      if ts[0].projectId == projectId then [TaskBrief(ts[0].id, ts[0].status)] + rest
      else rest
  }

  /** A project's task list holds each `{ id, status }` exactly as often as
      the project has tasks with that id and status. */
  lemma {:induction false} TasksOfProjectContents(ts: seq<Task>, projectId: Id, b: TaskBrief)
    ensures multiset(TasksOfProject(ts, projectId))[b] == CountBy(ts, ProjectBriefOf, (projectId, b.id, b.status))
  {
    if ts != [] {
      TasksOfProjectContents(ts[1..], projectId, b);
      var rest := TasksOfProject(ts[1..], projectId);
      if ts[0].projectId == projectId {
        var head := TaskBrief(ts[0].id, ts[0].status);
        assert multiset([head] + rest) == multiset{head} + multiset(rest);
      }
    }
  }

  /** Up to five visible projects, each with all of its tasks. */
  function ProjectStats(store: Store, userId: Id): (r: seq<ProjectStat>)
    ensures |r| == if |VisibleProjects(store, userId)| <= ListLimit
                   then |VisibleProjects(store, userId)| else ListLimit
    ensures forall i :: 0 <= i < |r| ==>
              && r[i].project in store.projects
              && ProjectVisible(store, userId, r[i].project)
              && r[i].project == VisibleProjects(store, userId)[i]
              && r[i].tasks == TasksOfProject(store.tasks, r[i].project.id)
              && |r[i].tasks| == CountBy(store.tasks, ProjectIdOf, r[i].project.id)
  {
    var vp := VisibleProjects(store, userId);
    var n := if |vp| <= ListLimit then |vp| else ListLimit;
    seq(n, i requires 0 <= i < n => ProjectStat(vp[i], TasksOfProject(store.tasks, vp[i].id)))
  }

  /** GET: the assembled dashboard; without a session, only 401. */
  function GetDashboard(store: Store, session: Option<Caller>, col: Collation, now: int): (r: Result<Dashboard, ApiError>)
    ensures r.Err? <==> session.None?
    ensures r.Err? ==> r.error == Unauthorized
    ensures r.Ok? ==>
              var d := r.value;
              && d.stats.assignedTasks <= d.stats.totalTasks
              && SumCounts(d.tasksByStatus) == d.stats.totalTasks
              && SumCounts(d.tasksByPriority) == d.stats.totalTasks
              && |d.recentTasks| <= ListLimit
              && |d.upcomingTasks| <= ListLimit
              && |d.projectStats| == (if d.stats.totalProjects <= ListLimit then d.stats.totalProjects else ListLimit)
    ensures r.Ok? ==>
              var d := r.value;
              var id := session.value.id;
              && d.stats.totalProjects == |VisibleProjects(store, id)|
              && d.stats.totalTasks == |VisibleTasks(store, id)|
              && d.stats.assignedTasks == |FindMany(store, AssignedOpenWhere(id))|
              && (forall s :: Lookup(d.tasksByStatus, s) == CountBy(VisibleTasks(store, id), StatusOf, s))
              && (forall p :: Lookup(d.tasksByPriority, p) == CountBy(VisibleTasks(store, id), PriorityOf, p))
              && multiset(d.recentTasks) <= multiset(FindMany(store, RecentWhere(id)))
              && SortedBy(col, NewestFirst, d.recentTasks)
              && multiset(d.upcomingTasks) <= multiset(FindMany(store, UpcomingWhere(id, now)))
              && SortedBy(col, EarliestDueFirst, d.upcomingTasks)
              && (forall i :: 0 <= i < |d.projectStats| ==>
                    && d.projectStats[i].project == VisibleProjects(store, id)[i]
                    && d.projectStats[i].tasks == TasksOfProject(store.tasks, d.projectStats[i].project.id))
  {
    match session
    case None => Err(Unauthorized)
    case Some(c) =>
      Ok(Dashboard(
        GetStats(store, c.id),
        TasksByStatus(store, c.id),
        TasksByPriority(store, c.id),
        RecentTasks(store, c.id, col),
        UpcomingTasks(store, c.id, col, now),
        ProjectStats(store, c.id)))
  }

  /** The dashboard's task total is the length of the unfiltered task list:
      both use the same visibility rule. */
  lemma TotalMatchesTaskList(store: Store, c: Caller, col: Collation, now: int)
    ensures GetDashboard(store, Some(c), col, now).Ok?
    ensures TasksRoute.GetTasks(store, Some(c), [], col).Ok?
    ensures GetDashboard(store, Some(c), col, now).value.stats.totalTasks ==
            |TasksRoute.GetTasks(store, Some(c), [], col).value|
  {
    var w := TasksRoute.BuildWhere(c.id, TasksRoute.ReadQuery([])).value;
    assert w == VisibleTasksWhere(c.id);
    var listed := TasksRoute.GetTasks(store, Some(c), [], col).value;
    assert listed == Sort(col, TaskListOrder, VisibleTasks(store, c.id));
    assert |listed| == |multiset(listed)| == |multiset(VisibleTasks(store, c.id))|;
  }

  /** A recent-list entry is never older than a qualifying task that was left out. */
  lemma RecentAreNewest(store: Store, userId: Id, col: Collation, y: Task)
    requires y in store.tasks && (y.createdById == userId || y.assignedToId == Some(userId))
    ensures y !in RecentTasks(store, userId, col) ==>
              forall x :: x in RecentTasks(store, userId, col) ==> x.createdAt >= y.createdAt
  {
    var ts := FindMany(store, RecentWhere(userId));
    assert y in ts;
    TakeSortedIsTop(col, NewestFirst, ts, ListLimit, y);
  }

  /** An upcoming-list entry is never due later than a qualifying task that was left out. */
  lemma UpcomingAreSoonest(store: Store, userId: Id, col: Collation, now: int, y: Task)
    requires y in store.tasks && y.assignedToId == Some(userId) && y.status != DONE
    requires y.dueDate.Some? && y.dueDate.value >= now
    ensures y !in UpcomingTasks(store, userId, col, now) ==>
              forall x :: x in UpcomingTasks(store, userId, col, now) ==> x.dueDate.value <= y.dueDate.value
  {
    var ts := FindMany(store, UpcomingWhere(userId, now));
    assert y in ts;
    TakeSortedIsTop(col, EarliestDueFirst, ts, ListLimit, y);
    var top := UpcomingTasks(store, userId, col, now);
    assert top == Take(Sort(col, EarliestDueFirst, ts), ListLimit);
    if y !in top {
      forall x | x in top ensures x.dueDate.value <= y.dueDate.value {
        assert x.dueDate.Some? && Before(col, EarliestDueFirst, x, y);
        assert DueCmp(col.nullDueFirst, x.dueDate, y.dueDate) <= 0;
      }
    }
  }

  /** An overdue open task assigned to the caller is missing from the
      upcoming list but still counted under its status. */
  lemma OverdueCountedNotUpcoming(store: Store, userId: Id, col: Collation, now: int, t: Task)
    requires t in store.tasks && t.assignedToId == Some(userId)
    requires t.dueDate.Some? && t.dueDate.value < now
    ensures t !in UpcomingTasks(store, userId, col, now)
    ensures Lookup(TasksByStatus(store, userId), t.status) > 0
  {
    var ts := VisibleTasks(store, userId);
    assert t in ts;
    var i :| 0 <= i < |ts| && ts[i] == t;
    assert StatusOf(ts[i]) == t.status;
  }
}

=== FILE: domain.dfy ===
/** The entities of the tracker: users, projects, project memberships and
    tasks, the enumerations they use, and an immutable snapshot of the
    entity store that every query in this model reads. */
module Domain {
  import opened Wrappers

  type Id = string

  datatype Role = MEMBER | ADMIN

  datatype Priority = LOW | MEDIUM | HIGH

  datatype TaskStatus = TODO | IN_PROGRESS | DONE

  datatype ProjectStatus = ACTIVE | ON_HOLD | COMPLETED

  /** The identity a session yields: the user's id and global role. */
  datatype Caller = Caller(id: Id, role: Role)

  datatype User = User(id: Id, name: string, email: string, role: Role)

  datatype Project = Project(
    id: Id,
    name: string,
    description: Option<string>,
    status: ProjectStatus,
    ownerId: Id)

  /** One row of the project/user join table. */
  datatype Membership = Membership(projectId: Id, userId: Id)

  /** A task row; timestamps are integers (milliseconds). */
  datatype Task = Task(
    id: Id,
    title: string,
    description: Option<string>,
    priority: Priority,
    status: TaskStatus,
    dueDate: Option<int>,
    projectId: Id,
    createdById: Id,
    assignedToId: Option<Id>,
    createdAt: int)

  /** A snapshot of the entity store. Sequence order is the store's
      natural row order. */
  datatype Store = Store(
    users: seq<User>,
    projects: seq<Project>,
    members: seq<Membership>,
    tasks: seq<Task>)

  /** The `{ id, name, email }` projection of a user that payloads carry. */
  datatype UserRef = UserRef(id: Id, name: string, email: string)

  /** The `{ id, status }` projection of a task that project payloads carry. */
  datatype TaskBrief = TaskBrief(id: Id, status: TaskStatus)

  /** Failures a handler reports, each with its HTTP status code. */
  datatype ApiError = Unauthorized | ValidationError | InternalFailure {
    function StatusCode(): nat {
      match this
      case Unauthorized => 401
      case ValidationError => 400
      case InternalFailure => 500
    }
  }

  function PriorityName(p: Priority): string {
    match p
    case LOW => "LOW"
    case MEDIUM => "MEDIUM"
    case HIGH => "HIGH"
  }

  function StatusName(s: TaskStatus): string {
    match s
    case TODO => "TODO"
    case IN_PROGRESS => "IN_PROGRESS"
    case DONE => "DONE"
  }

  /** Reads a priority from its wire name; any other string is rejected. */
  function ParsePriority(s: string): (r: Option<Priority>)
    ensures r.Some? ==> PriorityName(r.value) == s
    ensures r.None? ==> forall p: Priority :: PriorityName(p) != s
  {
    if s == "LOW" then Some(LOW)
    else if s == "MEDIUM" then Some(MEDIUM)
    else if s == "HIGH" then Some(HIGH)
    else None
  }

  /** Reads a task status from its wire name; any other string is rejected. */
  function ParseStatus(s: string): (r: Option<TaskStatus>)
    ensures r.Some? ==> StatusName(r.value) == s
    ensures r.None? ==> forall st: TaskStatus :: StatusName(st) != s
  {
    if s == "TODO" then Some(TODO)
    else if s == "IN_PROGRESS" then Some(IN_PROGRESS)
    else if s == "DONE" then Some(DONE)
    else None
  }

  lemma ParsePriorityName(p: Priority)
    ensures ParsePriority(PriorityName(p)) == Some(p)
  {
  }

  lemma ParseStatusName(s: TaskStatus)
    ensures ParseStatus(StatusName(s)) == Some(s)
  {
  }

  /** Every value of each enumeration, in declaration order. */
  const AllStatuses: seq<TaskStatus> := [TODO, IN_PROGRESS, DONE]
  const AllPriorities: seq<Priority> := [LOW, MEDIUM, HIGH]

  function StatusOf(t: Task): TaskStatus { t.status }
  function PriorityOf(t: Task): Priority { t.priority }
  function ProjectIdOf(t: Task): Id { t.projectId }
}

=== FILE: grouping.dfy ===
/** Group-and-count over tasks, as the store's `groupBy` returns it: one
    group per key value that occurs, with its positive count. Also the
    client's lookup that reads a group's count, defaulting to 0. */
module Grouping {
  import opened Domain

  datatype Group<K> = Group(key: K, count: nat)

  /** The number of tasks whose key is `k`. */
  function CountBy<K(==)>(ts: seq<Task>, key: Task -> K, k: K): (n: nat)
    ensures n <= |ts|
    ensures n == 0 <==> forall i :: 0 <= i < |ts| ==> key(ts[i]) != k
  {
    if ts == [] then 0
    else (if key(ts[0]) == k then 1 else 0) + CountBy(ts[1..], key, k)
  }

  ghost predicate Distinct<K>(s: seq<K>) {
    forall i, j :: 0 <= i < j < |s| ==> s[i] != s[j]
  }

  /** One group per value of `universe` that occurs among the tasks, in
      the order of `universe`. */
  function GroupBy<K(==)>(ts: seq<Task>, key: Task -> K, universe: seq<K>): (gs: seq<Group<K>>)
    ensures forall i :: 0 <= i < |gs| ==> gs[i].key in universe
    ensures forall i :: 0 <= i < |gs| ==> gs[i].count > 0 && gs[i].count == CountBy(ts, key, gs[i].key)
    ensures |gs| <= |universe|
  {
    if universe == [] then []
    else
      var n := CountBy(ts, key, universe[0]);
      var head := if n > 0 then [Group(universe[0], n)] else [];
      head + GroupBy(ts, key, universe[1..])
  }

  /** The count of the first group with key `k`, or 0 when there is none. */
  function Lookup<K(==)>(gs: seq<Group<K>>, k: K): (n: nat)
    ensures (forall i :: 0 <= i < |gs| ==> gs[i].key != k) ==> n == 0
    ensures n > 0 ==> exists i :: 0 <= i < |gs| && gs[i].key == k && gs[i].count == n
    ensures forall i :: 0 <= i < |gs| && gs[i].key == k && (forall j :: 0 <= j < i ==> gs[j].key != k) ==> n == gs[i].count
  {
    if gs == [] then 0
    else if gs[0].key == k then gs[0].count
    else Lookup(gs[1..], k)
  }

  function SumCounts<K>(gs: seq<Group<K>>): nat {
    if gs == [] then 0 else gs[0].count + SumCounts(gs[1..])
  }

  /** The sum, over the values of `universe`, of the number of tasks with that key. */
  function SumOver<K(==)>(ts: seq<Task>, key: Task -> K, universe: seq<K>): nat {
    if universe == [] then 0
    else CountBy(ts, key, universe[0]) + SumOver(ts, key, universe[1..])
  }

  function Occurrences<K(==)>(s: seq<K>, x: K): nat {
    if s == [] then 0 else (if s[0] == x then 1 else 0) + Occurrences(s[1..], x)
  }

  lemma {:induction false} OccursOnce<K>(s: seq<K>, x: K)
    requires Distinct(s) && x in s
    ensures Occurrences(s, x) == 1
  {
    if s[0] == x {
      NotOccurring(s[1..], x);
    } else {
      OccursOnce(s[1..], x);
    }
  }

  lemma {:induction false} NotOccurring<K>(s: seq<K>, x: K)
    requires x !in s
    ensures Occurrences(s, x) == 0
  {
    if s != [] {
      NotOccurring(s[1..], x);
    }
  }

  lemma {:induction false} SumOverSplit<K>(ts: seq<Task>, key: Task -> K, universe: seq<K>)
    requires ts != []
    ensures SumOver(ts, key, universe) == Occurrences(universe, key(ts[0])) + SumOver(ts[1..], key, universe)
  {
    if universe != [] {
      SumOverSplit(ts, key, universe[1..]);
    }
  }

  /** Counting by a key whose values all lie in a duplicate-free universe
      counts every task exactly once. */
  lemma {:induction false} SumOverCoversAll<K>(ts: seq<Task>, key: Task -> K, universe: seq<K>)
    requires Distinct(universe)
    requires forall t :: t in ts ==> key(t) in universe
    ensures SumOver(ts, key, universe) == |ts|
  {
    if ts == [] {
      SumOverZero(key, universe);
    } else {
      SumOverSplit(ts, key, universe);
      OccursOnce(universe, key(ts[0]));
      assert forall t :: t in ts[1..] ==> t in ts;
      SumOverCoversAll(ts[1..], key, universe);
    }
  }

  lemma {:induction false} SumOverZero<K>(key: Task -> K, universe: seq<K>)
    ensures SumOver([], key, universe) == 0
  {
    if universe != [] {
      SumOverZero(key, universe[1..]);
    }
  }

  /** Dropping empty groups does not change the total. */
  lemma {:induction false} GroupSumIsSumOver<K>(ts: seq<Task>, key: Task -> K, universe: seq<K>)
    ensures SumCounts(GroupBy(ts, key, universe)) == SumOver(ts, key, universe)
  {
    if universe != [] {
      var n := CountBy(ts, key, universe[0]);
      var rest := GroupBy(ts, key, universe[1..]);
      GroupSumIsSumOver(ts, key, universe[1..]);
      if n > 0 {
        var gs := [Group(universe[0], n)] + rest;
        assert gs[1..] == rest;
      } else {
        assert GroupBy(ts, key, universe) == rest;
      }
    }
  }

  /** The groups partition the tasks: their counts add up to the number of tasks. */
  lemma GroupBySum<K>(ts: seq<Task>, key: Task -> K, universe: seq<K>)
    requires Distinct(universe)
    requires forall t :: t in ts ==> key(t) in universe
    ensures SumCounts(GroupBy(ts, key, universe)) == |ts|
  {
    GroupSumIsSumOver(ts, key, universe);
    SumOverCoversAll(ts, key, universe);
  }

  /** Looking a key up in the groups yields the number of tasks with that
      key, and 0 for a value outside the universe. */
  lemma {:induction false} LookupGroupBy<K>(ts: seq<Task>, key: Task -> K, universe: seq<K>, k: K)
    requires Distinct(universe)
    ensures Lookup(GroupBy(ts, key, universe), k) == if k in universe then CountBy(ts, key, k) else 0
  {
    if universe != [] {
      var n := CountBy(ts, key, universe[0]);
      var rest := GroupBy(ts, key, universe[1..]);
      assert Distinct(universe[1..]) by {
        forall i, j | 0 <= i < j < |universe[1..]| ensures universe[1..][i] != universe[1..][j] {
          assert universe[1..][i] == universe[i + 1] && universe[1..][j] == universe[j + 1];
        }
      }
      LookupGroupBy(ts, key, universe[1..], k);
      if universe[0] == k {
        assert k !in universe[1..] by {
          forall j | 0 <= j < |universe[1..]| ensures universe[1..][j] != k {
            assert universe[1..][j] == universe[j + 1];
          }
        }
      }
      if n > 0 {
        var gs := [Group(universe[0], n)] + rest;
        assert gs[1..] == rest;
      } else {
        assert GroupBy(ts, key, universe) == rest;
      }
    }
  }

  lemma StatusesDistinct()
    ensures Distinct(AllStatuses)
    ensures forall t: Task :: StatusOf(t) in AllStatuses
  {
    forall t: Task ensures StatusOf(t) in AllStatuses {
      match t.status
      case TODO => assert AllStatuses[0] == TODO;
      case IN_PROGRESS => assert AllStatuses[1] == IN_PROGRESS;
      case DONE => assert AllStatuses[2] == DONE;
    }
  }

  lemma PrioritiesDistinct()
    ensures Distinct(AllPriorities)
    ensures forall t: Task :: PriorityOf(t) in AllPriorities
  {
    forall t: Task ensures PriorityOf(t) in AllPriorities {
      match t.priority
      case LOW => assert AllPriorities[0] == LOW;
      case MEDIUM => assert AllPriorities[1] == MEDIUM;
      case HIGH => assert AllPriorities[2] == HIGH;
    }
  }

  /** Grouping by status covers every task once and answers every lookup. */
  lemma StatusGroups(ts: seq<Task>)
    ensures SumCounts(GroupBy(ts, StatusOf, AllStatuses)) == |ts|
    ensures forall s :: Lookup(GroupBy(ts, StatusOf, AllStatuses), s) == CountBy(ts, StatusOf, s)
  {
    StatusesDistinct();
    GroupBySum(ts, StatusOf, AllStatuses);
    forall s ensures Lookup(GroupBy(ts, StatusOf, AllStatuses), s) == CountBy(ts, StatusOf, s) {
      LookupGroupBy(ts, StatusOf, AllStatuses, s);
      assert s in AllStatuses by {
        match s
        case TODO => assert AllStatuses[0] == s;
        case IN_PROGRESS => assert AllStatuses[1] == s;
        case DONE => assert AllStatuses[2] == s;
      }
    }
  }

  /** Grouping by priority covers every task once and answers every lookup. */
  lemma PriorityGroups(ts: seq<Task>)
    ensures SumCounts(GroupBy(ts, PriorityOf, AllPriorities)) == |ts|
    ensures forall p :: Lookup(GroupBy(ts, PriorityOf, AllPriorities), p) == CountBy(ts, PriorityOf, p)
  {
    PrioritiesDistinct();
    GroupBySum(ts, PriorityOf, AllPriorities);
    forall p ensures Lookup(GroupBy(ts, PriorityOf, AllPriorities), p) == CountBy(ts, PriorityOf, p) {
      LookupGroupBy(ts, PriorityOf, AllPriorities, p);
      assert p in AllPriorities by {
        match p
        case LOW => assert AllPriorities[0] == p;
        case MEDIUM => assert AllPriorities[1] == p;
        case HIGH => assert AllPriorities[2] == p;
      }
    }
  }

  /** The per-status counts of a list add up to its length. */
  lemma StatusCountsSum(ts: seq<Task>)
    ensures CountBy(ts, StatusOf, TODO) + CountBy(ts, StatusOf, IN_PROGRESS) + CountBy(ts, StatusOf, DONE) == |ts|
  {
    StatusesDistinct();
    SumOverCoversAll(ts, StatusOf, AllStatuses);
    assert AllStatuses[1..] == [IN_PROGRESS, DONE];
    assert AllStatuses[1..][1..] == [DONE];
    assert AllStatuses[1..][1..][1..] == [];
  }

  /** The per-priority counts of a list add up to its length. */
  lemma PriorityCountsSum(ts: seq<Task>)
    ensures CountBy(ts, PriorityOf, HIGH) + CountBy(ts, PriorityOf, MEDIUM) + CountBy(ts, PriorityOf, LOW) == |ts|
  {
    PrioritiesDistinct();
    SumOverCoversAll(ts, PriorityOf, AllPriorities);
    assert AllPriorities[1..] == [MEDIUM, HIGH];
    assert AllPriorities[1..][1..] == [HIGH];
    assert AllPriorities[1..][1..][1..] == [];
  }
}

=== FILE: ordering.dfy ===
/** The orderings the handlers ask the store for, and a sort that realises
    them. How the database ranks enum values and where it places null due
    dates are not fixed by the handlers, so both are a `Collation`. */
module Ordering {
  import opened Wrappers
  import opened Domain

  /** Database-dependent sort semantics: the rank of each priority (larger
      sorts first under a descending order) and whether a null due date
      sorts before every present one in an ascending order. */
  datatype Collation = Collation(priorityRank: Priority -> int, nullDueFirst: bool)

  datatype Order =
    | TaskListOrder      // priority desc, then dueDate asc, then createdAt desc
    | NewestFirst        // createdAt desc
    | EarliestDueFirst   // dueDate asc

  /** Three-way comparison of due dates under an ascending order. */
  function DueCmp(nullDueFirst: bool, a: Option<int>, b: Option<int>): (c: int)
    ensures -1 <= c <= 1
    ensures c == 0 <==> a == b
    ensures a.Some? && b.Some? ==> (c < 0 <==> a.value < b.value)
    ensures a.None? && b.Some? ==> (c < 0 <==> nullDueFirst)
    ensures a.Some? && b.None? ==> (c < 0 <==> !nullDueFirst)
  {
    match (a, b)
    case (None, None) => 0
    case (None, Some(_)) => if nullDueFirst then -1 else 1
    case (Some(_), None) => if nullDueFirst then 1 else -1
    case (Some(x), Some(y)) => if x < y then -1 else if x == y then 0 else 1
  }

  /** Swapping the operands negates the comparison. */
  lemma DueCmpAntisymmetric(nullDueFirst: bool, a: Option<int>, b: Option<int>)
    ensures DueCmp(nullDueFirst, a, b) == -DueCmp(nullDueFirst, b, a)
  {
  }

  /** `a` may be listed before `b`. */
  predicate Before(col: Collation, ord: Order, a: Task, b: Task) {
    match ord
    case TaskListOrder =>
      var ra := col.priorityRank(a.priority);
      var rb := col.priorityRank(b.priority);
      var d := DueCmp(col.nullDueFirst, a.dueDate, b.dueDate);
      ra > rb || (ra == rb && (d < 0 || (d == 0 && a.createdAt >= b.createdAt)))
    case NewestFirst => a.createdAt >= b.createdAt
    case EarliestDueFirst => DueCmp(col.nullDueFirst, a.dueDate, b.dueDate) <= 0
  }

  lemma BeforeTotal(col: Collation, ord: Order, a: Task, b: Task)
    ensures Before(col, ord, a, b) || Before(col, ord, b, a)
  {
  }

  lemma BeforeTransitive(col: Collation, ord: Order, a: Task, b: Task, c: Task)
    requires Before(col, ord, a, b) && Before(col, ord, b, c)
    ensures Before(col, ord, a, c)
  {
  }

  ghost predicate SortedBy(col: Collation, ord: Order, s: seq<Task>) {
    forall i, j :: 0 <= i < j < |s| ==> Before(col, ord, s[i], s[j])
  }

  /** Under the task-list order, priority rank never increases along a sorted list. */
  lemma SortedListRanks(col: Collation, s: seq<Task>, i: int, j: int)
    requires SortedBy(col, TaskListOrder, s) && 0 <= i < j < |s|
    ensures col.priorityRank(s[i].priority) >= col.priorityRank(s[j].priority)
    ensures col.priorityRank(s[i].priority) == col.priorityRank(s[j].priority) ==>
              DueCmp(col.nullDueFirst, s[i].dueDate, s[j].dueDate) <= 0
    ensures col.priorityRank(s[i].priority) == col.priorityRank(s[j].priority) && s[i].dueDate == s[j].dueDate ==>
              s[i].createdAt >= s[j].createdAt
  {
    assert Before(col, TaskListOrder, s[i], s[j]);
  }

  lemma ConsSorted(col: Collation, ord: Order, h: Task, rest: seq<Task>)
    requires SortedBy(col, ord, rest)
    requires forall y :: y in rest ==> Before(col, ord, h, y)
    ensures SortedBy(col, ord, [h] + rest)
  {
    var r := [h] + rest;
    forall i, j | 0 <= i < j < |r| ensures Before(col, ord, r[i], r[j]) {
      if i == 0 {
        assert r[j] == rest[j - 1];
      } else {
        assert r[i] == rest[i - 1] && r[j] == rest[j - 1];
      }
    }
  }

  lemma FirstBeforeAll(col: Collation, ord: Order, x: Task, s: seq<Task>)
    requires SortedBy(col, ord, s) && s != [] && Before(col, ord, x, s[0])
    ensures forall y :: y in s ==> Before(col, ord, x, y)
  {
    forall y | y in s ensures Before(col, ord, x, y) {
      var j :| 0 <= j < |s| && s[j] == y;
      if j > 0 {
        BeforeTransitive(col, ord, x, s[0], s[j]);
      }
    }
  }

  lemma HeadBeforeInserted(col: Collation, ord: Order, x: Task, s: seq<Task>, rest: seq<Task>)
    requires SortedBy(col, ord, s) && s != [] && !Before(col, ord, x, s[0])
    requires multiset(rest) == multiset(s[1..]) + multiset{x}
    ensures forall y :: y in rest ==> Before(col, ord, s[0], y)
  {
    forall y | y in rest ensures Before(col, ord, s[0], y) {
      assert y in multiset(rest);
      if y == x {
        BeforeTotal(col, ord, x, s[0]);
      } else {
        assert y in multiset(s[1..]);
        var j :| 0 <= j < |s[1..]| && s[1..][j] == y;
        assert s[j + 1] == y;
      }
    }
  }

  /** Inserts `x` into a sorted list, keeping it sorted. */
  function Insert(col: Collation, ord: Order, x: Task, s: seq<Task>): (r: seq<Task>)
    requires SortedBy(col, ord, s)
    ensures SortedBy(col, ord, r)
    ensures multiset(r) == multiset(s) + multiset{x}
  {
    if s == [] then [x]
    else if Before(col, ord, x, s[0]) then
      FirstBeforeAll(col, ord, x, s);
      ConsSorted(col, ord, x, s);
      [x] + s
    else
      var rest := Insert(col, ord, x, s[1..]);
      HeadBeforeInserted(col, ord, x, s, rest);
      ConsSorted(col, ord, s[0], rest);
      assert s == [s[0]] + s[1..];
      [s[0]] + rest
  }

  /** The rows of `s` rearranged into order `ord`. Ties are left in some order
      the model fixes; the store promises nothing about them. */
  function Sort(col: Collation, ord: Order, s: seq<Task>): (r: seq<Task>)
    ensures SortedBy(col, ord, r)
    ensures multiset(r) == multiset(s)
  {
    if s == [] then []
    else
      assert s == [s[0]] + s[1..];
      Insert(col, ord, s[0], Sort(col, ord, s[1..]))
  }

  /** The first `n` rows, or all of them when there are fewer (a `take`). */
  function Take(s: seq<Task>, n: nat): (r: seq<Task>)
    ensures |r| == if |s| <= n then |s| else n
    ensures r == s[..|r|]
    ensures multiset(r) <= multiset(s)
  {
    if |s| <= n then s
    else
      assert s == s[..n] + s[n..];
      s[..n]
  }

  /** Taking the first `n` of a sorted list keeps the best rows: every row
      of the input that did not make the cut is preceded by every row that did. */
  lemma {:induction false} TakeSortedIsTop(col: Collation, ord: Order, s: seq<Task>, n: nat, y: Task)
    requires y in s
    ensures y !in Take(Sort(col, ord, s), n) ==> forall x :: x in Take(Sort(col, ord, s), n) ==> Before(col, ord, x, y)
  {
    var sorted := Sort(col, ord, s);
    var top := Take(sorted, n);
    assert y in multiset(sorted);
    if y !in top {
      var k :| 0 <= k < |sorted| && sorted[k] == y;
      assert k >= |top|;
      forall x | x in top ensures Before(col, ord, x, y) {
        var i :| 0 <= i < |top| && top[i] == x;
        assert sorted[i] == x;
      }
    }
  }
}

=== FILE: projects_page.dfy ===
/** What the project list view derives: who sees the edit and delete
    controls, and the contents of the create/edit form. */
module ProjectsPage {
  import opened Wrappers
  import opened Domain

  datatype MemberEntry = MemberEntry(user: UserRef)

  /** A project as the list payload presents it. */
  datatype ProjectCard = ProjectCard(
    id: Id,
    name: string,
    description: Option<string>,
    status: ProjectStatus,
    owner: UserRef,
    members: seq<MemberEntry>,
    tasks: seq<TaskBrief>)

  datatype ProjectForm = ProjectForm(name: string, description: string, status: ProjectStatus, memberIds: seq<Id>)

  datatype ProjectsPageState = ProjectsPageState(showModal: bool, editing: Option<ProjectCard>, form: ProjectForm)

  /** The edit and delete controls are shown to the owner and to admins only. */
  function CanManage(session: Option<Caller>, p: ProjectCard): (b: bool)
    ensures b <==> session.Some? && (p.owner.id == session.value.id || session.value.role == ADMIN)
  {
    match session
    case None => false
    case Some(c) => p.owner.id == c.id || c.role == ADMIN
  }

  /** An admin sees the controls on every project. */
  lemma AdminManagesEveryProject(id: Id, p: ProjectCard)
    ensures CanManage(Some(Caller(id, ADMIN)), p)
  {
  }

  /** Membership alone grants no controls. */
  lemma MemberCannotManage(c: Caller, p: ProjectCard)
    requires c.role == MEMBER && p.owner.id != c.id
    ensures !CanManage(Some(c), p)
  {
  }

  /** The form a create dialog opens with. */
  function BlankForm(): (f: ProjectForm)
    ensures f.name == "" && f.description == "" && f.status == ACTIVE && f.memberIds == []
  {
    ProjectForm("", "", ACTIVE, [])
  }

  function OpenCreate(s: ProjectsPageState): (r: ProjectsPageState)
    ensures r.showModal && r.editing.None? && r.form == BlankForm()
  {
    ProjectsPageState(true, None, BlankForm())
  }

  /** The edit dialog is pre-filled from the project: a null description
      becomes empty and the members become their user ids, in order. */
  function OpenEdit(s: ProjectsPageState, p: ProjectCard): (r: ProjectsPageState)
    ensures r.showModal && r.editing == Some(p)
    ensures r.form.name == p.name && r.form.status == p.status
    ensures r.form.description == p.description.GetOr("")
    ensures |r.form.memberIds| == |p.members|
    ensures forall i :: 0 <= i < |p.members| ==> r.form.memberIds[i] == p.members[i].user.id
  {
    var ids := seq(|p.members|, i requires 0 <= i < |p.members| => p.members[i].user.id);
    ProjectsPageState(true, Some(p), ProjectForm(p.name, p.description.GetOr(""), p.status, ids))
  }

  /** After a save: on success the dialog closes and the form returns to
      the create defaults; on failure nothing changes. */
  function AfterSubmit(s: ProjectsPageState, succeeded: bool): (r: ProjectsPageState)
    ensures succeeded ==> !r.showModal && r.editing.None? && r.form == OpenCreate(s).form
    ensures !succeeded ==> r == s
  {
    if succeeded then ProjectsPageState(false, None, BlankForm()) else s
  }

  /** The member and task counts on a card. */
  datatype CardCounts = CardCounts(members: nat, tasks: nat)

  function ShownCounts(p: ProjectCard): CardCounts {
    CardCounts(|p.members|, |p.tasks|)
  }

  /** The edit form lists exactly as many members as the card shows, and
      saving it unchanged resubmits the same member ids. */
  lemma EditFormMatchesCard(s: ProjectsPageState, p: ProjectCard)
    ensures |OpenEdit(s, p).form.memberIds| == ShownCounts(p).members
    ensures forall id :: id in OpenEdit(s, p).form.memberIds <==> exists m :: m in p.members && m.user.id == id
  {
    var ids := OpenEdit(s, p).form.memberIds;
    forall id ensures id in ids <==> exists m :: m in p.members && m.user.id == id {
      if id in ids {
        var i :| 0 <= i < |ids| && ids[i] == id;
        assert p.members[i] in p.members;
      }
      if exists m :: m in p.members && m.user.id == id {
        var m :| m in p.members && m.user.id == id;
        var i :| 0 <= i < |p.members| && p.members[i] == m;
        assert ids[i] == id;
      }
    }
  }
}

=== FILE: query.dfy ===
/** The task filters the handlers hand to the store. A `TaskWhere` is the
    conjunction of a visibility scope and optional column constraints;
    `Select` evaluates it over a sequence of rows, keeping their order. */
module Query {
  import opened Wrappers
  import opened Domain
  import opened Visibility

  datatype Scope =
    | AnyTask
    | CreatedOrAssigned(userId: Id)   // creator or assignee only
    | VisibleTo(userId: Id)           // the full task visibility rule

  datatype TaskWhere = TaskWhere(
    scope: Scope,
    projectId: Option<Id>,
    status: Option<TaskStatus>,
    statusNot: Option<TaskStatus>,
    priority: Option<Priority>,
    assignedToId: Option<Id>,
    dueOnOrAfter: Option<int>)

  /** A filter with the given scope and no further constraint. */
  function Where(scope: Scope): TaskWhere {
    TaskWhere(scope, None, None, None, None, None, None)
  }

  predicate InScope(store: Store, scope: Scope, t: Task) {
    match scope
    case AnyTask => true
    case CreatedOrAssigned(u) => t.createdById == u || t.assignedToId == Some(u)
    case VisibleTo(u) => TaskVisible(store, u, t)
  }

  /** A row satisfies the filter; a null due date never satisfies a lower bound. */
  predicate Matches(store: Store, w: TaskWhere, t: Task) {
    && InScope(store, w.scope, t)
    && (w.projectId.Some? ==> t.projectId == w.projectId.value)
    && (w.status.Some? ==> t.status == w.status.value)
    && (w.statusNot.Some? ==> t.status != w.statusNot.value)
    && (w.priority.Some? ==> t.priority == w.priority.value)
    && (w.assignedToId.Some? ==> t.assignedToId == w.assignedToId)
    && (w.dueOnOrAfter.Some? ==> t.dueDate.Some? && t.dueDate.value >= w.dueOnOrAfter.value)
  }

  /** The rows of `ts` that satisfy `w`, in their original order. */
  function Select(store: Store, w: TaskWhere, ts: seq<Task>): (r: seq<Task>)
    ensures forall t :: t in r <==> t in ts && Matches(store, w, t)
    ensures forall i :: 0 <= i < |r| ==> Matches(store, w, r[i])
    ensures multiset(r) <= multiset(ts)
    ensures |r| <= |ts|
  {
    if ts == [] then []
    else
      assert ts == [ts[0]] + ts[1..];
      if Matches(store, w, ts[0]) then [ts[0]] + Select(store, w, ts[1..])
      else Select(store, w, ts[1..])
  }

  function FindMany(store: Store, w: TaskWhere): seq<Task> {
    Select(store, w, store.tasks)
  }

  /** A filter at least as strict as another selects a sub-multiset of its rows. */
  lemma {:induction false} SelectMonotone(store: Store, w1: TaskWhere, w2: TaskWhere, ts: seq<Task>)
    requires forall t :: t in ts && Matches(store, w1, t) ==> Matches(store, w2, t)
    ensures multiset(Select(store, w1, ts)) <= multiset(Select(store, w2, ts))
    ensures |Select(store, w1, ts)| <= |Select(store, w2, ts)|
  {
    if ts != [] {
      assert forall t :: t in ts[1..] ==> t in ts;
      SelectMonotone(store, w1, w2, ts[1..]);
    }
  }
}

=== FILE: tasks_page.dfy ===
/** What the task list view derives: the query string it sends for its
    filters, and the contents of the create/edit task form. */
module TasksPage {
  import opened Wrappers
  import opened Domain
  import opened Visibility
  import opened Ordering
  import opened TasksRoute

  /** The filter controls; an empty string means "all". */
  datatype Filters = Filters(projectId: string, status: string, priority: string, assignedToMe: bool)

  /** One optional query pair, present only for a non-empty value. */
  function ParamIf(present: bool, name: string, value: string): Params {
    if present then [(name, value)] else []
  }

  /** The query string sent for the filters: a pair for each non-empty
      select, and `assignedToMe=true` when the box is checked. */
  function EncodeFilters(f: Filters): (p: Params)
    ensures forall i :: 0 <= i < |p| ==> p[i].1 != ""
    ensures |p| <= 4
  {
    ParamIf(f.projectId != "", "projectId", f.projectId)
    + ParamIf(f.status != "", "status", f.status)
    + ParamIf(f.priority != "", "priority", f.priority)
    + ParamIf(f.assignedToMe, "assignedToMe", "true")
  }

  lemma {:induction false} GetParamAppend(a: Params, b: Params, name: string)
    ensures GetParam(a + b, name) == if GetParam(a, name).Some? then GetParam(a, name) else GetParam(b, name)
  {
    if a == [] {
      assert a + b == b;
    } else {
      assert (a + b)[0] == a[0];
      assert (a + b)[1..] == a[1..] + b;
      GetParamAppend(a[1..], b, name);
    }
  }

  lemma GetParamIf(present: bool, name: string, value: string, n: string)
    ensures GetParam(ParamIf(present, name, value), n) == if present && name == n then Some(value) else None
  {
  }

  function Present(s: string): Option<string> {
    if s != "" then Some(s) else None
  }

  /** What the server's lookup of `n` finds in the encoded filters. */
  function Expected(f: Filters, n: string): Option<string> {
    if n == "projectId" then Present(f.projectId)
    else if n == "status" then Present(f.status)
    else if n == "priority" then Present(f.priority)
    else if n == "assignedToMe" && f.assignedToMe then Some("true")
    else None
  }

  lemma {:induction false} LookupEncoded(f: Filters, n: string)
    ensures GetParam(EncodeFilters(f), n) == Expected(f, n)
  {
    var a := ParamIf(f.projectId != "", "projectId", f.projectId);
    var b := ParamIf(f.status != "", "status", f.status);
    var c := ParamIf(f.priority != "", "priority", f.priority);
    var d := ParamIf(f.assignedToMe, "assignedToMe", "true");
    GetParamAppend(a + b + c, d, n);
    GetParamAppend(a + b, c, n);
    GetParamAppend(a, b, n);
    GetParamIf(f.projectId != "", "projectId", f.projectId, n);
    GetParamIf(f.status != "", "status", f.status, n);
    GetParamIf(f.priority != "", "priority", f.priority, n);
    GetParamIf(f.assignedToMe, "assignedToMe", "true", n);
    assert |"projectId"| == 9 && |"status"| == 6 && |"priority"| == 8 && |"assignedToMe"| == 12;
  }

  /** The server reads back each parameter the page encoded, and only those. */
  lemma DecodeEncoded(f: Filters)
    ensures ReadQuery(EncodeFilters(f)) ==
            ListQuery(Present(f.projectId), Present(f.status), Present(f.priority),
                      if f.assignedToMe then Some("true") else None)
  {
    LookupEncoded(f, "projectId");
    LookupEncoded(f, "status");
    LookupEncoded(f, "priority");
    LookupEncoded(f, "assignedToMe");
  }

  /** The status and priority selects only offer empty or enumeration values. */
  predicate OfferedValues(f: Filters) {
    && (f.status == "" || ParseStatus(f.status).Some?)
    && (f.priority == "" || ParsePriority(f.priority).Some?)
  }

  /** Filters set on the page reach the server intact: the listed tasks are
      exactly the visible ones meeting each chosen filter, and the
      assigned-to-caller constraint applies exactly when the box is checked. */
  lemma FiltersRoundTrip(store: Store, c: Caller, f: Filters, col: Collation)
    requires OfferedValues(f)
    ensures GetTasks(store, Some(c), EncodeFilters(f), col).Ok?
    ensures BuildWhere(c.id, ReadQuery(EncodeFilters(f))).value.assignedToId ==
            if f.assignedToMe then Some(c.id) else None
    ensures forall t :: t in GetTasks(store, Some(c), EncodeFilters(f), col).value <==>
              && t in store.tasks && TaskVisible(store, c.id, t)
              && (f.projectId != "" ==> t.projectId == f.projectId)
              && (f.status != "" ==> StatusName(t.status) == f.status)
              && (f.priority != "" ==> PriorityName(t.priority) == f.priority)
              && (f.assignedToMe ==> t.assignedToId == Some(c.id))
  {
    DecodeEncoded(f);
  }

  // ---------------------------------------------------------------- the form

  datatype ProjectRef = ProjectRef(id: Id, name: string)

  /** A task as the list payload presents it. */
  datatype TaskRow = TaskRow(
    id: Id,
    title: string,
    description: Option<string>,
    priority: Priority,
    status: TaskStatus,
    dueDate: Option<int>,
    project: ProjectRef,
    createdBy: UserRef,
    assignedTo: Option<UserRef>)

  datatype TaskForm = TaskForm(
    title: string,
    description: string,
    priority: Priority,
    status: TaskStatus,
    dueDate: string,
    projectId: string,
    assignedToId: string)

  datatype TasksPageState = TasksPageState(showModal: bool, editing: Option<TaskRow>, form: TaskForm)

  /** The defaults every fresh form starts from, for a given project. */
  function DefaultForm(projectId: string): (f: TaskForm)
    ensures f.title == "" && f.description == "" && f.dueDate == "" && f.assignedToId == ""
    ensures f.priority == MEDIUM && f.status == TODO && f.projectId == projectId
  {
    TaskForm("", "", MEDIUM, TODO, "", projectId, "")
  }

  /** The create dialog preselects the first listed project, if any. */
  function OpenCreate(s: TasksPageState, projects: seq<ProjectRef>): (r: TasksPageState)
    ensures r.showModal && r.editing.None?
    ensures r.form == DefaultForm(if projects == [] then "" else projects[0].id)
  {
    TasksPageState(true, None, DefaultForm(if projects == [] then "" else projects[0].id))
  }

  /** The edit dialog is pre-filled from the task; `dayOf` renders a due
      date as the date input's day string. */
  function OpenEdit(s: TasksPageState, t: TaskRow, dayOf: int -> string): (r: TasksPageState)
    ensures r.showModal && r.editing == Some(t)
    ensures r.form.title == t.title && r.form.priority == t.priority && r.form.status == t.status
    ensures r.form.projectId == t.project.id
    ensures r.form.description == t.description.GetOr("")
    ensures r.form.assignedToId == if t.assignedTo.Some? then t.assignedTo.value.id else ""
    ensures r.form.dueDate == if t.dueDate.Some? then dayOf(t.dueDate.value) else ""
  {
    var assignee := if t.assignedTo.Some? then t.assignedTo.value.id else "";
    var due := if t.dueDate.Some? then dayOf(t.dueDate.value) else "";
    TasksPageState(true, Some(t),
      TaskForm(t.title, t.description.GetOr(""), t.priority, t.status, due, t.project.id, assignee))
  }

  /** Picking a project in the form; the selector is disabled while editing. */
  function ChooseProject(s: TasksPageState, projectId: string): (r: TasksPageState)
    ensures s.editing.Some? ==> r == s
    ensures s.editing.None? ==> r.form.projectId == projectId && r.form == s.form.(projectId := projectId)
  {
    if s.editing.Some? then s else s.(form := s.form.(projectId := projectId))
  }

  /** After a save: on success the dialog closes, nothing is being edited
      and the form holds the defaults with no project; on failure nothing changes. */
  function AfterSubmit(s: TasksPageState, succeeded: bool): (r: TasksPageState)
    ensures succeeded ==> !r.showModal && r.editing.None? && r.form == OpenCreate(s, []).form
    ensures !succeeded ==> r == s
  {
    if succeeded then TasksPageState(false, None, DefaultForm("")) else s
  }

  /** An edit form submits the task's own project, whatever project the
      user tries to pick. */
  lemma EditKeepsProject(s: TasksPageState, t: TaskRow, dayOf: int -> string, choice: string)
    ensures ChooseProject(OpenEdit(s, t, dayOf), choice).form.projectId == t.project.id
  {
  }

  /** The request body the dialog sends: every field as a string. It passes
      the task schema exactly when the title is filled in, and then carries
      the form's values unchanged. */
  function FormBody(f: TaskForm): (b: TaskBody)
    ensures ValidateTask(b).Ok? <==> f.title != ""
    ensures ValidateTask(b).Ok? ==>
              var v := ValidateTask(b).value;
              && v.title == f.title && v.description == Some(f.description)
              && v.priority == f.priority && v.status == f.status
              && v.dueDate == Some(f.dueDate) && v.projectId == f.projectId
              && v.assignedToId == Some(f.assignedToId)
  {
    ParsePriorityName(f.priority);
    ParseStatusName(f.status);
    TaskBody(Text(f.title), Text(f.description), Text(PriorityName(f.priority)),
             Text(StatusName(f.status)), Text(f.dueDate), Text(f.projectId), Text(f.assignedToId))
  }

  /** A create form left at its defaults, with a title filled in, creates
      an unassigned MEDIUM/TODO task without a due date, owned by the caller. */
  lemma DefaultFormCreates(store: Store, c: Caller, s: TasksPageState, projects: seq<ProjectRef>, title: string,
                           parseDate: string -> Option<int>, newId: Id, now: int)
    requires title != ""
    ensures ValidateTask(FormBody(OpenCreate(s, projects).form.(title := title))).Ok?
    ensures var out := PostTask(store, Some(c), FormBody(OpenCreate(s, projects).form.(title := title)), parseDate, newId, now);
            out.1.Ok? ==>
              && out.1.value.title == title
              && out.1.value.priority == MEDIUM && out.1.value.status == TODO
              && out.1.value.dueDate.None? && out.1.value.assignedToId.None?
              && out.1.value.createdById == c.id
  {
    var body := FormBody(OpenCreate(s, projects).form.(title := title));
    ParsePriorityName(MEDIUM);
    ParseStatusName(TODO);
    var v := ValidateTask(body).value;
    assert v.priority == MEDIUM by { PriorityNameInjective(v.priority, MEDIUM); }
    assert v.status == TODO by { StatusNameInjective(v.status, TODO); }
  }
}

=== FILE: tasks_route.dfy ===
/** The task collection endpoint. GET lists the tasks the caller may see,
    narrowed by optional query parameters and sorted for display; POST
    validates a new task, fills in defaults and stores it with the caller
    as its creator. */
module TasksRoute {
  import opened Wrappers
  import opened Domain
  import opened Visibility
  import opened Query
  import opened Ordering

  /** A query string as an ordered list of name/value pairs. */
  type Params = seq<(string, string)>

  /** The first value given for `name`, as a search-parameter lookup returns it. */
  function GetParam(params: Params, name: string): (r: Option<string>)
    ensures r.Some? ==> (name, r.value) in params
    ensures r.Some? ==> exists i :: 0 <= i < |params| && params[i] == (name, r.value) &&
                                    forall j :: 0 <= j < i ==> params[j].0 != name
    ensures r.None? <==> forall i :: 0 <= i < |params| ==> params[i].0 != name
  {
    if params == [] then None
    else if params[0].0 == name then Some(params[0].1)
    else GetParam(params[1..], name)
  }

  /** The four parameters the list handler reads; each may be absent. */
  datatype ListQuery = ListQuery(
    projectId: Option<string>,
    status: Option<string>,
    priority: Option<string>,
    assignedToMe: Option<string>)

  function ReadQuery(params: Params): ListQuery {
    ListQuery(
      GetParam(params, "projectId"),
      GetParam(params, "status"),
      GetParam(params, "priority"),
      GetParam(params, "assignedToMe"))
  }

  /** JavaScript truthiness of a parameter: present and not the empty string. */
  predicate Truthy(p: Option<string>) {
    p.Some? && p.value != ""
  }

  /** The parameter value is one the store can compare a status column with. */
  predicate StatusParamOk(p: Option<string>) {
    Truthy(p) ==> ParseStatus(p.value).Some?
  }

  predicate PriorityParamOk(p: Option<string>) {
    Truthy(p) ==> ParsePriority(p.value).Some?
  }

  /** What each parameter demands of a listed task, stated on the wire values. */
  predicate PassesFilters(userId: Id, q: ListQuery, t: Task) {
    && (Truthy(q.projectId) ==> t.projectId == q.projectId.value)
    && (Truthy(q.status) ==> StatusName(t.status) == q.status.value)
    && (Truthy(q.priority) ==> PriorityName(t.priority) == q.priority.value)
    && (q.assignedToMe == Some("true") ==> t.assignedToId == Some(userId))
  }

  function StatusFilter(p: Option<string>): (r: Result<Option<TaskStatus>, ApiError>)
    ensures r.Ok? <==> StatusParamOk(p)
    ensures r.Ok? ==> (r.value.Some? <==> Truthy(p))
    ensures r.Ok? && r.value.Some? ==> StatusName(r.value.value) == p.value
  {
    if !Truthy(p) then Ok(None)
    else match ParseStatus(p.value)
      case Some(s) => Ok(Some(s))
      case None => Err(InternalFailure)
  }

  function PriorityFilter(p: Option<string>): (r: Result<Option<Priority>, ApiError>)
    ensures r.Ok? <==> PriorityParamOk(p)
    ensures r.Ok? ==> (r.value.Some? <==> Truthy(p))
    ensures r.Ok? && r.value.Some? ==> PriorityName(r.value.value) == p.value
  {
    if !Truthy(p) then Ok(None)
    else match ParsePriority(p.value)
      case Some(pr) => Ok(Some(pr))
      case None => Err(InternalFailure)
  }

  lemma StatusNameInjective(a: TaskStatus, b: TaskStatus)
    ensures StatusName(a) == StatusName(b) ==> a == b
  {
  }

  lemma PriorityNameInjective(a: Priority, b: Priority)
    ensures PriorityName(a) == PriorityName(b) ==> a == b
  {
  }

  /** The store filter for a list request: the visibility rule ANDed with
      each truthy parameter. A status or priority outside its enumeration
      is refused by the store, which the handler reports as a failure. */
  function BuildWhere(userId: Id, q: ListQuery): (r: Result<TaskWhere, ApiError>)
    ensures r.Ok? <==> StatusParamOk(q.status) && PriorityParamOk(q.priority)
    ensures r.Err? ==> r.error == InternalFailure
    ensures r.Ok? ==> forall store, t :: Matches(store, r.value, t) <==>
              TaskVisible(store, userId, t) && PassesFilters(userId, q, t)
  {
    match (StatusFilter(q.status), PriorityFilter(q.priority))
    case (Ok(s), Ok(p)) =>
      var w := TaskWhere(
        VisibleTo(userId),
        if Truthy(q.projectId) then q.projectId else None,
        s,
        None,
        p,
        if q.assignedToMe == Some("true") then Some(userId) else None,
        None);
      assert forall store, t :: Matches(store, w, t) <==>
          TaskVisible(store, userId, t) && PassesFilters(userId, q, t) by {
        forall store, t ensures Matches(store, w, t) <==>
            TaskVisible(store, userId, t) && PassesFilters(userId, q, t) {
          if s.Some? { StatusNameInjective(t.status, s.value); }
          if p.Some? { PriorityNameInjective(t.priority, p.value); }
        }
      }
      Ok(w)
    case _ => Err(InternalFailure)
  }

  /** GET: the caller's visible tasks that pass every filter, in the
      task-list order (priority desc, due date asc, creation desc). */
  function GetTasks(store: Store, session: Option<Caller>, params: Params, col: Collation): (r: Result<seq<Task>, ApiError>)
    ensures session.None? ==> r == Err(Unauthorized)
    ensures session.Some? ==>
              (r.Ok? <==> StatusParamOk(ReadQuery(params).status) && PriorityParamOk(ReadQuery(params).priority))
    ensures r.Err? && session.Some? ==> r.error == InternalFailure
    ensures r.Ok? ==> forall t :: t in r.value <==>
              t in store.tasks && TaskVisible(store, session.value.id, t) &&
              PassesFilters(session.value.id, ReadQuery(params), t)
    ensures r.Ok? ==> multiset(r.value) <= multiset(store.tasks)
    ensures r.Ok? ==> SortedBy(col, TaskListOrder, r.value)
  {
    match session
    case None => Err(Unauthorized)
    case Some(c) =>
      match BuildWhere(c.id, ReadQuery(params))
      case Err(e) => Err(e)
      case Ok(w) =>
        var selected := FindMany(store, w);
        var sorted := Sort(col, TaskListOrder, selected);
        assert forall t :: t in sorted <==> t in selected by {
          forall t ensures t in sorted <==> t in selected {
            assert t in sorted <==> t in multiset(sorted);
            assert t in selected <==> t in multiset(selected);
          }
        }
        Ok(sorted)
  }

  /** With the `assignedToMe` parameter exactly "true", every listed task is
      assigned to the caller. */
  lemma AssignedToMeNarrows(store: Store, c: Caller, params: Params, col: Collation)
    requires ReadQuery(params).assignedToMe == Some("true")
    ensures GetTasks(store, Some(c), params, col).Ok? ==>
              forall t :: t in GetTasks(store, Some(c), params, col).value ==> t.assignedToId == Some(c.id)
  {
  }

  /** Filtering only ever narrows: a filtered list is a sub-multiset of the
      unfiltered one. */
  lemma FilteredWithinUnfiltered(store: Store, c: Caller, params: Params, col: Collation)
    requires GetTasks(store, Some(c), params, col).Ok?
    ensures GetTasks(store, Some(c), [], col).Ok?
    ensures multiset(GetTasks(store, Some(c), params, col).value) <= multiset(GetTasks(store, Some(c), [], col).value)
    ensures |GetTasks(store, Some(c), params, col).value| <= |GetTasks(store, Some(c), [], col).value|
  {
    var w1 := BuildWhere(c.id, ReadQuery(params)).value;
    var w0 := BuildWhere(c.id, ReadQuery([])).value;
    SelectMonotone(store, w1, w0, store.tasks);
    var a := GetTasks(store, Some(c), params, col).value;
    var b := GetTasks(store, Some(c), [], col).value;
    assert multiset(a) == multiset(FindMany(store, w1));
    assert multiset(b) == multiset(FindMany(store, w0));
    assert |a| == |multiset(a)| && |b| == |multiset(b)|;
  }

  /** Two parameter lists that agree on every truthy value and on whether
      `assignedToMe` is exactly "true" give the same answer: empty strings
      and other `assignedToMe` values are ignored. */
  lemma OnlyEffectiveParamsMatter(store: Store, session: Option<Caller>, p1: Params, p2: Params, col: Collation)
    requires Truthy(ReadQuery(p1).projectId) == Truthy(ReadQuery(p2).projectId)
    requires Truthy(ReadQuery(p1).projectId) ==> ReadQuery(p1).projectId == ReadQuery(p2).projectId
    requires Truthy(ReadQuery(p1).status) == Truthy(ReadQuery(p2).status)
    requires Truthy(ReadQuery(p1).status) ==> ReadQuery(p1).status == ReadQuery(p2).status
    requires Truthy(ReadQuery(p1).priority) == Truthy(ReadQuery(p2).priority)
    requires Truthy(ReadQuery(p1).priority) ==> ReadQuery(p1).priority == ReadQuery(p2).priority
    requires (ReadQuery(p1).assignedToMe == Some("true")) == (ReadQuery(p2).assignedToMe == Some("true"))
    ensures GetTasks(store, session, p1, col) == GetTasks(store, session, p2, col)
  {
  }

  /** The caller's role is never consulted: only the id decides what is listed. */
  lemma ListIgnoresRole(store: Store, id: Id, r1: Role, r2: Role, params: Params, col: Collation)
    ensures GetTasks(store, Some(Caller(id, r1)), params, col) == GetTasks(store, Some(Caller(id, r2)), params, col)
  {
  }

  // ---------------------------------------------------------------- POST

  /** A JSON body field: absent, a string, or any other JSON value (null,
      number, object, ...). */
  datatype JsonField = Missing | Text(text: string) | NonText

  datatype TaskBody = TaskBody(
    title: JsonField,
    description: JsonField,
    priority: JsonField,
    status: JsonField,
    dueDate: JsonField,
    projectId: JsonField,
    assignedToId: JsonField)

  /** A body that passed the task schema, with defaults applied. */
  datatype TaskInput = TaskInput(
    title: string,
    description: Option<string>,
    priority: Priority,
    status: TaskStatus,
    dueDate: Option<string>,
    projectId: Id,
    assignedToId: Option<string>)

  /** An optional string field: absent or a string. */
  predicate OptionalTextOk(f: JsonField) {
    f.Missing? || f.Text?
  }

  function OptionalText(f: JsonField): Option<string> {
    if f.Text? then Some(f.text) else None
  }

  predicate PriorityFieldOk(f: JsonField) {
    f.Missing? || (f.Text? && ParsePriority(f.text).Some?)
  }

  predicate StatusFieldOk(f: JsonField) {
    f.Missing? || (f.Text? && ParseStatus(f.text).Some?)
  }

  /** The task schema: a non-empty title, a string project id, optional
      strings elsewhere, and priority and status within their enumerations,
      defaulting to MEDIUM and TODO. */
  function ValidateTask(body: TaskBody): (r: Result<TaskInput, ApiError>)
    ensures r.Err? ==> r.error == ValidationError
    ensures r.Ok? <==>
              && body.title.Text? && |body.title.text| >= 1
              && OptionalTextOk(body.description)
              && PriorityFieldOk(body.priority)
              && StatusFieldOk(body.status)
              && OptionalTextOk(body.dueDate)
              && body.projectId.Text?
              && OptionalTextOk(body.assignedToId)
    ensures r.Ok? ==> body.title == Text(r.value.title) && body.projectId == Text(r.value.projectId)
    ensures r.Ok? ==> (body.priority.Missing? ==> r.value.priority == MEDIUM)
    ensures r.Ok? ==> (body.priority.Text? ==> PriorityName(r.value.priority) == body.priority.text)
    ensures r.Ok? ==> (body.status.Missing? ==> r.value.status == TODO)
    ensures r.Ok? ==> (body.status.Text? ==> StatusName(r.value.status) == body.status.text)
    ensures r.Ok? ==> r.value.description == OptionalText(body.description)
    ensures r.Ok? ==> r.value.dueDate == OptionalText(body.dueDate)
    ensures r.Ok? ==> r.value.assignedToId == OptionalText(body.assignedToId)
  {
    if !(body.title.Text? && |body.title.text| >= 1) then Err(ValidationError)
    else if !OptionalTextOk(body.description) then Err(ValidationError)
    else if !PriorityFieldOk(body.priority) || !StatusFieldOk(body.status) then Err(ValidationError)
    else if !OptionalTextOk(body.dueDate) || !body.projectId.Text? || !OptionalTextOk(body.assignedToId) then Err(ValidationError)
    else
      var priority := if body.priority.Missing? then MEDIUM else ParsePriority(body.priority.text).value;
      var status := if body.status.Missing? then TODO else ParseStatus(body.status.text).value;
      Ok(TaskInput(
        body.title.text,
        OptionalText(body.description),
        priority,
        status,
        OptionalText(body.dueDate),
        body.projectId.text,
        OptionalText(body.assignedToId)))
  }

  /** The create payload: creator from the session, a due date only for a
      non-empty date string, an assignee only for a non-empty id. */
  datatype TaskData = TaskData(
    title: string,
    description: Option<string>,
    priority: Priority,
    status: TaskStatus,
    dueDate: Option<int>,
    projectId: Id,
    createdById: Id,
    assignedToId: Option<Id>)

  /** `parseDate` is the date constructor; None is an invalid date, which
      the store refuses. */
  function ShapeTask(v: TaskInput, userId: Id, parseDate: string -> Option<int>): (r: Result<TaskData, ApiError>)
    ensures r.Err? <==> Truthy(v.dueDate) && parseDate(v.dueDate.value).None?
    ensures r.Err? ==> r.error == InternalFailure
    ensures r.Ok? ==> r.value.createdById == userId
    ensures r.Ok? ==> (r.value.dueDate.None? <==> !Truthy(v.dueDate))
    ensures r.Ok? && Truthy(v.dueDate) ==> r.value.dueDate == parseDate(v.dueDate.value)
    ensures r.Ok? ==> (r.value.assignedToId.None? <==> !Truthy(v.assignedToId))
    ensures r.Ok? && Truthy(v.assignedToId) ==> r.value.assignedToId == v.assignedToId
    ensures r.Ok? ==> r.value.title == v.title && r.value.description == v.description &&
                      r.value.priority == v.priority && r.value.status == v.status &&
                      r.value.projectId == v.projectId
  {
    var assignee := if Truthy(v.assignedToId) then v.assignedToId else None;
    if !Truthy(v.dueDate) then
      Ok(TaskData(v.title, v.description, v.priority, v.status, None, v.projectId, userId, assignee))
    else match parseDate(v.dueDate.value)
      case None => Err(InternalFailure)
      case Some(d) =>
        Ok(TaskData(v.title, v.description, v.priority, v.status, Some(d), v.projectId, userId, assignee))
  }

  predicate UserExists(store: Store, id: Id) {
    exists u :: u in store.users && u.id == id
  }

  predicate ProjectExists(store: Store, id: Id) {
    exists p :: p in store.projects && p.id == id
  }

  /** The references a create connects must exist; otherwise the store refuses the row. */
  predicate ConnectsResolve(store: Store, d: TaskData) {
    && ProjectExists(store, d.projectId)
    && UserExists(store, d.createdById)
    && (d.assignedToId.Some? ==> UserExists(store, d.assignedToId.value))
  }

  /** POST: returns the store after the request and the handler's answer
      (201 with the new task on success). `newId` and `now` are the id and
      creation time the store assigns. */
  function PostTask(store: Store, session: Option<Caller>, body: TaskBody,
                    parseDate: string -> Option<int>, newId: Id, now: int): (out: (Store, Result<Task, ApiError>))
    ensures session.None? ==> out == (store, Err(Unauthorized))
    ensures out.1 == Err(ValidationError) <==> session.Some? && ValidateTask(body).Err?
    ensures out.1.Ok? <==>
              && session.Some? && ValidateTask(body).Ok?
              && ShapeTask(ValidateTask(body).value, session.value.id, parseDate).Ok?
              && ConnectsResolve(store, ShapeTask(ValidateTask(body).value, session.value.id, parseDate).value)
    ensures out.1.Err? && session.Some? && ValidateTask(body).Ok? ==> out.1.error == InternalFailure
    ensures out.1.Err? ==> out.0 == store
    ensures out.1.Ok? ==> out.0 == store.(tasks := store.tasks + [out.1.value])
    ensures out.1.Ok? ==>
              var t := out.1.value;
              var v := ValidateTask(body).value;
              && t.id == newId && t.createdAt == now
              && t.createdById == session.value.id
              && t.title == v.title && t.description == v.description
              && t.priority == v.priority && t.status == v.status
              && t.projectId == v.projectId
              && (t.dueDate.None? <==> !Truthy(v.dueDate))
              && (Truthy(v.dueDate) ==> t.dueDate == parseDate(v.dueDate.value))
              && t.assignedToId == (if Truthy(v.assignedToId) then v.assignedToId else None)
              && ProjectExists(store, t.projectId)
  {
    match session
    case None => (store, Err(Unauthorized))
    case Some(c) =>
      match ValidateTask(body)
      case Err(e) => (store, Err(e))
      case Ok(v) =>
        match ShapeTask(v, c.id, parseDate)
        case Err(e) => (store, Err(e))
        case Ok(d) =>
          if !ConnectsResolve(store, d) then (store, Err(InternalFailure))
          else
            var t := Task(newId, d.title, d.description, d.priority, d.status, d.dueDate,
                          d.projectId, d.createdById, d.assignedToId, now);
            (store.(tasks := store.tasks + [t]), Ok(t))
  }

  /** A created task is visible to its creator in the task list afterwards. */
  lemma CreatedTaskIsListed(store: Store, c: Caller, body: TaskBody, parseDate: string -> Option<int>,
                            newId: Id, now: int, col: Collation)
    requires PostTask(store, Some(c), body, parseDate, newId, now).1.Ok?
    ensures GetTasks(PostTask(store, Some(c), body, parseDate, newId, now).0, Some(c), [], col).Ok?
    ensures PostTask(store, Some(c), body, parseDate, newId, now).1.value in
              GetTasks(PostTask(store, Some(c), body, parseDate, newId, now).0, Some(c), [], col).value
  {
    var out := PostTask(store, Some(c), body, parseDate, newId, now);
    assert out.1.value in out.0.tasks;
  }

  /** The caller's role is never consulted when creating: only the id decides. */
  lemma PostIgnoresRole(store: Store, id: Id, r1: Role, r2: Role, body: TaskBody,
                        parseDate: string -> Option<int>, newId: Id, now: int)
    ensures PostTask(store, Some(Caller(id, r1)), body, parseDate, newId, now)
            == PostTask(store, Some(Caller(id, r2)), body, parseDate, newId, now)
  {
  }
}

=== FILE: visibility.dfy ===
/** Who may see what: a project is visible to its owner and its members; a
    task is visible to its creator, its assignee, and whoever may see its
    project. The caller's role plays no part. */
module Visibility {
  import opened Wrappers
  import opened Domain

  predicate IsMember(store: Store, projectId: Id, userId: Id) {
    Membership(projectId, userId) in store.members
  }

  predicate ProjectVisible(store: Store, userId: Id, p: Project) {
    p.ownerId == userId || IsMember(store, p.id, userId)
  }

  /** The task's project (the row whose id it references) is visible. */
  predicate ProjectOfTaskVisible(store: Store, userId: Id, t: Task) {
    exists p :: p in store.projects && p.id == t.projectId && ProjectVisible(store, userId, p)
  }

  predicate TaskVisible(store: Store, userId: Id, t: Task) {
    || t.createdById == userId
    || t.assignedToId == Some(userId)
    || ProjectOfTaskVisible(store, userId, t)
  }

  /** The projects of `ps` the user may see, in order. */
  function SelectProjects(store: Store, userId: Id, ps: seq<Project>): (r: seq<Project>)
    ensures forall p :: p in r <==> p in ps && ProjectVisible(store, userId, p)
    ensures multiset(r) <= multiset(ps)
    ensures |r| <= |ps|
  {
    if ps == [] then []
    else
      assert ps == [ps[0]] + ps[1..];
      if ProjectVisible(store, userId, ps[0]) then [ps[0]] + SelectProjects(store, userId, ps[1..])
      else SelectProjects(store, userId, ps[1..])
  }

  function VisibleProjects(store: Store, userId: Id): seq<Project> {
    SelectProjects(store, userId, store.projects)
  }

  /** Becoming a member of a project never hides a task that was visible. */
  lemma JoinKeepsVisibility(store: Store, userId: Id, projectId: Id, t: Task)
    requires TaskVisible(store, userId, t)
    ensures TaskVisible(store.(members := store.members + [Membership(projectId, userId)]), userId, t)
  {
    var s' := store.(members := store.members + [Membership(projectId, userId)]);
    if ProjectOfTaskVisible(store, userId, t) {
      var p :| p in store.projects && p.id == t.projectId && ProjectVisible(store, userId, p);
      assert ProjectVisible(s', userId, p);
    }
  }

  /** Becoming a member of an existing project makes every one of its tasks visible. */
  lemma JoinGrantsProjectTasks(store: Store, userId: Id, p: Project, t: Task)
    requires p in store.projects && t.projectId == p.id
    ensures TaskVisible(store.(members := store.members + [Membership(p.id, userId)]), userId, t)
  {
    var s' := store.(members := store.members + [Membership(p.id, userId)]);
    assert ProjectVisible(s', userId, p);
  }

  /** Every task of a visible project is visible. */
  lemma VisibleProjectTasks(store: Store, userId: Id, p: Project, t: Task)
    requires p in store.projects && ProjectVisible(store, userId, p) && t.projectId == p.id
    ensures TaskVisible(store, userId, t)
  {
  }
}

=== FILE: wrappers.dfy ===
/** Optional values and success-or-error results, used for nullable columns,
    absent query parameters and handler outcomes. */
module Wrappers {

  datatype Option<+T> = None | Some(value: T) {

    /** Returns the value, or `default` when absent. */
    function GetOr(default: T): T {
      match this
      case Some(v) => v
      case None => default
    }
  }

  datatype Result<+T, +E> = Ok(value: T) | Err(error: E)
}
